=== FILE: README.md ===
# vlc-rc in Dafny

A model of the client side of VLC's remote-control ("rc") console interface, as the Rust
crate `vlc-rc` implements it, with proofs about it.

- **Line grammars** (`media.dfy`, module `Media`). A playlist row (`Track::from_parts`) and a
  subtitle-track row (`Subtitle::from_parts`) are read from one line of console output. They
  are written as hand-made matchers that make the choices of a leftmost-first backtracking
  regex search explicit:
  - the search is unanchored and the leftmost start wins;
  - `\s+` and `.+` are greedy and give characters back one at a time;
  - `.` does not match `\n`.

  The lemmas tie each matcher to a declarative statement of its grammar: it finds a match
  exactly when one exists, and the match it finds starts leftmost. Among the matches at that
  start, its title starts no earlier (the greedy `\s+` before the title) and ends no earlier
  (the greedy `.+`) than any other. They also cover the `Display` forms of both records, printing and parsing back as a
  round trip, the rejection of track and subtitle indices outside `i32`, and the volume bounds
  `MIN_VOLUME` = 0 and `MAX_VOLUME` = 200.
- **Prompt framing** (`socket.dfy`, module `Socket`). The connection is a class `IoSocket`
  over a scripted session:
  - `input` is everything the player will send, and `pos` is a read cursor;
  - `sent` logs everything written to the player;
  - a ghost `replies` logs every trimmed line `read_line` returned.

  Reads cover the greeting of `connect` (up to the first `>`), `read_until` and `read_line`.
  `trim_output` is a loop method proved against a recursive specification `Trimmed`.
- **Command façade** (`client.dfy`, module `Vlc`). Every `Client` method writes its command
  lines and reads and interprets the reply:
  - the pure interpretations are functions with lemmas: volume parse and clamp, `"1"` means
    playing, an unparsable time is no time, a blank title is no title;
  - the convergence loops of `set_volume`, `play` and `stop` are `while` loops with
    invariants over the socket's logs.
- **Support.** `errors.dfy` holds the two-variant error type and the `Option`/`Result`
  shapes. `numbers.dfy` holds the integer widths and decimal printing and parsing
  (`Display`, `FromStr` for `u16`, `u32` and `i32`). `text.dfy` holds the standard-library
  text operations the client uses: `str::trim`, `str::lines` and `Iterator::filter_map`.

The session model decides how a read ends. A read whose delimiter never comes consumes the
rest of the input and fails with `Io`; this stands for the one-second read timeout of the
real socket. As a result, every round of a polling loop consumes input, so the loops
terminate in the model. In the crate, the loops of `set_volume`, `play` and `stop` have no
bound of their own: against a player that keeps answering without ever reporting the awaited
state, they run forever. The finite scripted input is what ends them here.

Where the documentation and the code disagree, the model follows the code. `trim_output`
is documented as removing "any whitespace characters", but it removes only `>` and the
space character. `TrimmedKeeps` states that a reply starting with a tab or a line break is
left unchanged.

## Model

| member | source | states |
|---|---|---|
| Media.TrackFromParts | src/client/media.rs:53-80 | a parsed track's length is `DD:DD:DD` (8 characters), its index is non-negative and its title is a non-empty text on one line |
| Media.TrackSearch | src/client/media.rs:56-74 | the search returns the match at the first start where the anchored track matcher succeeds, and nothing when it fails at every start |
| Media.TrackSearchCorrect | src/client/media.rs:56-74 | the track grammar matches the line somewhere iff the search finds a match; that match satisfies the grammar and no match starts further left; every match at the same start has the same index, a title that starts no later (the greedy `\s+` before the title) and ends no later (the greedy `.+`, so the length is the last ` (DD:DD:DD` on the line) |
| Media.TrackAtComplete | src/client/media.rs:58-68 | whenever the grammar matches at a start, the anchored matcher succeeds there with the same index group and a title that starts no earlier and ends no earlier |
| Media.TrackRowRoundTrip | src/client/media.rs:47-80 | a track with a non-negative index, a `DD:DD:DD` length and a one-line title that does not start with whitespace is read back from the row marker and a space (and `*` for the current track) followed by its `Display` form |
| Media.TrackRowParsed | src/client/media.rs:74-79 | a row laid out as prefix, index digits, ` - `, title, ` (`, length, `)` yields exactly that index, title and length |
| Media.TrackIndexOverflow | src/client/media.rs:74-76 | a line whose leftmost occurrence of the track grammar has an index above 2147483647 yields no track |
| Media.NoLengthNoTrack | src/client/media.rs:66-68 | a line without `(` yields no track |
| Media.NoDelimiterNoRecord | src/client/media.rs:58-113 | a line without the row marker (a vertical bar) yields neither a track nor a subtitle track |
| Media.TrackRoundTripChopin | src/client/media.rs:158-165 | the row printed for track 8, "Chopin Nocturnes.mp3", "01:50:55" (the row of this test) reads back as that track |
| Media.TrackRoundTripBach | src/client/media.rs:166-173 | the current-track row printed for track 1, "Bach (00:00:01).mp3", "01:50:55" reads back as that track, whose title keeps the inner `(00:00:01)` |
| Media.TrackExamplesFrame | src/client/media.rs:150-153 | the playlist's header and footer lines yield no track |
| Media.TrackExamplesFolders | src/client/media.rs:151-152 | the rows `1 - Playlist` and `2 - Media Library` (no length) yield no track |
| Media.SubtitleFromParts | src/client/media.rs:108-130 | a parsed subtitle track has a non-empty title on one line |
| Media.SubtitleSearch | src/client/media.rs:111-125 | the search returns the match at the first start where the anchored subtitle matcher succeeds, and nothing when it fails at every start |
| Media.SubtitleSearchCorrect | src/client/media.rs:111-125 | the subtitle grammar matches somewhere iff the search finds a match; the match satisfies the grammar, its title runs to the end of the line and no match starts further left; every match at the same start has the same index and a title that starts no later and ends no later |
| Media.SubtitleAtComplete | src/client/media.rs:113-119 | whenever the grammar matches at a start, the anchored matcher succeeds there with the same index group and a title that starts no earlier and ends no earlier |
| Media.SubtitleSearchLeftmost | src/client/media.rs:111-125 | given one occurrence of the grammar, the search finds a match that starts no later, and at the same start one with its index and a title that covers its title |
| Media.SubtitleIndexOverflow | src/client/media.rs:125-127 | a line whose leftmost occurrence of the subtitle grammar has an index below -2147483648 or above 2147483647 yields no subtitle track |
| Media.SubtitleSearchGroups | src/client/media.rs:125-127 | when an occurrence of the grammar is the leftmost one, the search finds a match with its index group |
| Media.SubtitleIndexOutOfRange | src/client/media.rs:115-127 | a signed index group whose value lies outside the `i32` range does not parse |
| Media.SubtitleRowRoundTrip | src/client/media.rs:90-129 | a subtitle track whose title is non-empty, on one line and does not start with whitespace is read back from the row marker and a space followed by its `Display` form, negative index included |
| Media.SubtitleRowParsed | src/client/media.rs:125-129 | a row laid out as the row marker, a space, signed index, ` - `, title yields exactly that index and the whole rest of the line as title |
| Media.SubtitleRoundTripDisable | src/client/media.rs:184-187 | the row printed for subtitle track -1, "Disable *" reads back as that track |
| Media.SubtitleRoundTripEnglish | src/client/media.rs:188-191 | the row printed for subtitle track 2, "Track 1 - [English]" reads back as that track, whose title keeps the later ` - ` |
| Media.SubtitleExamplesNone | src/client/media.rs:177-180 | the subtitle listing's header and footer lines yield no subtitle track |
| Media.TrackLayoutMatch | src/client/media.rs:56-74 | on a printed row the leftmost match starts at the row marker and its groups are exactly the index, the title and the length |
| Media.SubtitleLayoutMatch | src/client/media.rs:111-125 | on a printed row the leftmost match starts at the row marker, its index group is the signed index and its title runs to the end of the line |
| Media.TrackText | src/client/media.rs:47-51 | `Display` of a track: the index, ` - `, the title, ` (`, the length and `)`; `TrackRowRoundTrip` reads it back |
| Media.SubtitleText | src/client/media.rs:90-94 | `Display` of a subtitle track: the index, ` - ` and the title; `SubtitleRowRoundTrip` reads it back |
| Numbers.NatToString | src/client/media.rs:49 | `Display` of an unsigned number is a non-empty digit string with that decimal value and no leading zero |
| Numbers.IntToString | src/client/media.rs:49-92 | `Display` of a signed index: a `-` before the digits of its magnitude when negative; `ParseI32OfIntToString` parses it back |
| Numbers.ParseI32 | src/client/media.rs:76 | a digit string parses iff its value fits `i32`, and then to that value; `-` followed by digits parses iff the value is at most 2147483648, and then to its negation |
| Numbers.ParseI32Overflow | src/client/media.rs:127 | a signed numeral whose value lies outside the `i32` range does not parse |
| Numbers.ParseI32OfIntToString | src/client/media.rs:49-76 | the printed form of any `i32` index parses back to it |
| Numbers.ParseUnsigned | src/client.rs:129 | a parsed unsigned value never exceeds the type's largest value |
| Numbers.ParseUnsignedDecimal | src/client.rs:129 | `FromStr` succeeds iff the text is an optional `+` and one or more digits whose value fits, and then yields that value |
| Numbers.ParseUnsignedOfNatToString | src/client.rs:159 | the printed form of a value that fits parses back to it |
| Text.TrimBounds | src/client.rs:344 | the trimmed text is empty iff the text is all whitespace, and otherwise starts and ends with non-whitespace |
| Text.TrimUnique | src/client.rs:129 | trimming recovers any text between leading and trailing whitespace that starts and ends with non-whitespace |
| Text.LinesNoNewline | src/client.rs:82 | a text has lines iff it is not empty, and no line holds a `\n` |
| Text.LinesOfJoin | src/client.rs:82 | lines written one after another, each ending in `\n`, are given back by `lines` in order, followed by the lines of what comes after |
| Text.FilterMapExact | src/client.rs:82 | when the extractor turns every line into a record, the result is those records in order |
| Text.FilterMapAllAbsent | src/client.rs:82 | when the extractor fails on every line, the result is empty |
| Text.FilterMapAppend | src/client.rs:82 | extracting from two blocks one after the other gives the records of the first, then those of the second |
| Socket.TrimOutput | src/client/socket.rs:95-100 | the loop that removes the first character while it is `>` or a space ends with `Trimmed(buf)` |
| Socket.Trimmed | src/client/socket.rs:95-100 | the specification of `trim_output`: drop the first character while it is `>` or a space; the lemmas below state its properties |
| Socket.TrimmedSuffix | src/client/socket.rs:94-99 | the result is a suffix of the buffer, everything removed is `>` or a space, and the result does not start with either |
| Socket.TrimmedPrefix | src/client/socket.rs:96-98 | trimming removes exactly a leading run of `>` and spaces and leaves the rest unchanged |
| Socket.TrimmedIdempotent | src/client/socket.rs:95-100 | trimming twice is trimming once |
| Socket.TrimmedKeeps | src/client/socket.rs:94-96 | a buffer that is empty or starts with anything but `>` or a space (a tab or a line break included) is left unchanged |
| Socket.TrimmedExampleVolume | src/client/socket.rs:96-98 | `"> 25\n"` becomes `"25\n"` |
| Socket.TrimmedExampleRepeated | src/client/socket.rs:96-98 | `">  >25"` becomes `"25"` |
| Socket.EndsAtUnique | src/client/socket.rs:43 | a read for a delimiter can stop in only one place: just past the first delimiter |
| Socket.NoEndWithoutDelim | src/client/socket.rs:43 | a read cannot stop when the rest of the input holds no delimiter |
| Socket.IoSocket.Connect | src/client/socket.rs:30-49 | on success the greeting has been consumed: the cursor is just past the first `>` of the input, and nothing has been written; the connection fails with `Io` exactly when no `>` ever comes |
| Socket.IoSocket.ReadUntil | src/client/socket.rs:43 | on success the cursor moves just past the first delimiter, the buffer gains the characters read and the count is their number; without a delimiter the read consumes the rest and fails with `Io` |
| Socket.IoSocket.ReadLine | src/client/socket.rs:74-81 | reads up to and including the next `\n`; the count is taken before trimming, and trimming applies to the whole buffer passed in; the trimmed line is logged as the latest reply |
| Socket.IoSocket.Write | src/client/socket.rs:84-92 | the text is appended to what the player receives, and nothing is read |
| Vlc.PollLogStep | src/client.rs:158-161 | one more round of a polling loop adds the action and the next query to what was written |
| Vlc.Capped | src/client.rs:153-155 | the requested volume is `amt` when `amt` is at most `MAX_VOLUME`, and `MAX_VOLUME` otherwise; it never exceeds `MAX_VOLUME` |
| Vlc.VolumeCommandParses | src/client.rs:159 | the volume command is `volume `, the decimal digits of the volume, and a line break |
| Vlc.SeekCommandParses | src/client.rs:296-314 | the seek command is `seek `, `+` forward or `-` back, the decimal digits of the seconds, and a line break |
| Vlc.VolumeCommand | src/client.rs:159 | the line `volume <amt>` that `set_volume` writes; `VolumeCommandParses` reads the volume back from it |
| Vlc.SeekCommand | src/client.rs:296-314 | the line `seek +<secs>` or `seek -<secs>` that `forward` and `rewind` write; `SeekCommandParses` reads the direction and seconds back from it |
| Vlc.VolumeReply | src/client.rs:129-135 | a volume read from a reply never exceeds `MAX_VOLUME`, and the only failure is `ParseErr` |
| Vlc.VolumeReplyParses | src/client.rs:129 | a reply is a volume iff its trimmed text parses as a `u16`; a volume below the cap is the parsed number |
| Vlc.VolumeReplyOf | src/client.rs:129-135 | the number `v` after prompt artifacts reads as `v` when at most 200, as 200 when above 200 and at most 65535, and as `ParseErr` above 65535 |
| Vlc.IsPlayingReply | src/client.rs:190 | a reply means playing when its trimmed text is exactly `1`; `IsPlayingReplyOf` and `IsPlayingReplyNotBlank` state its cases |
| Vlc.TimeReply | src/client.rs:281 | a reply is a time when its trimmed text parses as a `u32`, and no time otherwise; `TimeReplyParses` and `TimeReplyOf` state its cases |
| Vlc.TitleReply | src/client.rs:343-348 | a reply is a title when its trimmed text is not empty; `TitleReplyBounds` and `TitleReplyOf` state its cases |
| Vlc.IsPlayingReplyOf | src/client.rs:190 | `1` after prompt artifacts reads as playing and `0` as not playing |
| Vlc.IsPlayingReplyNotBlank | src/client.rs:190 | a blank reply never reads as playing |
| Vlc.TimeReplyParses | src/client.rs:281 | a reply is a time iff its trimmed text parses as a `u32`; a blank reply is no time, not an error |
| Vlc.TimeReplyOf | src/client.rs:281 | a number of seconds after prompt artifacts reads as that time when it fits a `u32`, and as no time when it does not |
| Vlc.TitleReplyBounds | src/client.rs:343-348 | a reply has no title iff it is blank; a title starts and ends with non-whitespace |
| Vlc.TitleReplyOf | src/client.rs:344-345 | a title between leading and trailing whitespace reads as that title |
| Vlc.PlaylistOf | src/client.rs:82 | the tracks of a block: every line of it read as a track, those that are not dropped; `PlaylistOfRows` states how rows are read |
| Vlc.SubtitlesOf | src/client.rs:108 | the subtitle tracks of a block, line by line, those that are not dropped; `SubtitlesOfRows` states how rows are read |
| Vlc.PlaylistOfRows | src/client.rs:73-83 | playlist rows, one per line, followed by any text, read as those tracks in order, then the tracks in that text |
| Vlc.SubtitlesOfRows | src/client.rs:99-109 | subtitle rows, one per line, followed by any text, read as those subtitle tracks in order, then those in that text |
| Vlc.Client.Connect | src/client.rs:52-57 | a client exists iff the greeting up to the first `>` was read, and then nothing has been written |
| Vlc.Client.Ask | src/client.rs:123-127 | writes the command line, then either the player's next line was read and its trimmed text returned, or the read timed out with `Io` |
| Vlc.Client.Playlist | src/client.rs:73-83 | writes `playlist`, reads up to the next `>`, and returns one track for each matching line of what was read, in order |
| Vlc.Client.Subtitles | src/client.rs:99-109 | writes `strack`, reads up to the next `>`, and returns one subtitle track for each matching line of what was read, in order |
| Vlc.Client.GetVolume | src/client.rs:122-136 | writes `volume`, reads one line, and returns the volume that line reads as (at most `MAX_VOLUME`) or `ParseErr`; `Io` when no line comes |
| Vlc.Client.SetVolume | src/client.rs:152-163 | writes `volume` queries and `volume <capped amt>` commands alternately, and reads one reply per query except a last query that timed out; the replies are the next lines of the input, one after another from where the cursor stood; when the last query was answered the cursor stands just past its line, otherwise the rest of the input holds no line break and was consumed; `Io` exactly when that last query got no reply; `Ok` only when the last reply read as the capped volume and `ParseErr` only when it did not parse; when the first reply already reads as the capped volume, it is the only query and no command is written |
| Vlc.Client.AwaitVolume | src/client.rs:158-161 | the polling loop of `set_volume` for a given target: queries and commands alternate, the replies are the next lines of the input, `Io` exactly when the last query timed out, `Ok` only when the last reply read as the target; it also reports the first reply and where its line ends, and when that reply already reads as the target nothing but the first query is written |
| Vlc.Client.IsPlaying | src/client.rs:183-191 | writes `is_playing`, reads one line and returns whether its trimmed text is `1`; `Io` when no line comes |
| Vlc.Client.Play | src/client.rs:205-215 | when no `>` follows the cursor, only `playlist` is written, no reply is read and the result is `Io`; when the playlist read is empty, only `playlist` is written; otherwise `playlist` is written and then `is_playing` queries alternating with `play` commands; one reply is read per query except a last query that timed out, and the replies are the next lines of the input after the playlist, with the cursor just past the last one when it was answered; `Io` exactly when the last query timed out, and `Ok` means the last reply read as playing |
| Vlc.Client.PlayUntilPlaying | src/client.rs:209-212 | writes `is_playing` queries alternating with `play` commands and reads one reply per query except a last query that timed out; the replies are the next lines of the input, one after another, with the cursor just past the last one when it was answered and at the end of an input without further line breaks otherwise; `Io` exactly when the last query timed out; `Ok` means the last reply read as playing |
| Vlc.Client.Stop | src/client.rs:229-236 | `is_playing` queries alternate with `stop` commands, and one reply is read per query except a last query that timed out; the replies are the next lines of the input, one after another, with the cursor just past the last one when it was answered and at the end of an input without further line breaks otherwise; `Io` exactly when the last query timed out; `Ok` means the last reply read as not playing; when the first reply already does, it is the only query and no `stop` is written |
| Vlc.Client.Pause | src/client.rs:251-259 | writes `is_playing`; then `play` and `pause` exactly when the reply read as playing, and nothing more otherwise |
| Vlc.Client.GetTime | src/client.rs:274-282 | writes `get_time`, reads one line and returns the time it reads as, no time when it does not parse; `Io` when no line comes |
| Vlc.Client.GetTitle | src/client.rs:336-349 | writes `get_title`, reads one line and returns its trimmed text, no title when it is blank; `Io` when no line comes |
| Vlc.Client.Forward | src/client.rs:295-300 | writes `seek +<secs>` and reads nothing |
| Vlc.Client.Rewind | src/client.rs:313-318 | writes `seek -<secs>` and reads nothing |
| Vlc.Client.Next | src/client.rs:362-367 | writes `next` and reads nothing |
| Vlc.Client.Prev | src/client.rs:380-385 | writes `prev` and reads nothing |
| Vlc.Client.Fullscreen | src/client.rs:402-407 | writes `fullscreen on` or `fullscreen off` and reads nothing |

## Left out

- The TCP connection, the read and write timeouts, `try_clone`, `shutdown` and `Drop` are not modelled. A scripted input and an output log stand in for the stream, and a read that never finds its delimiter stands for a timeout.
- Write and flush never fail in the model. In Rust they can return an `io::Error`, which the client would pass on as `Io`.
- The `io::Error` payload of `Error::Io`, the `Display` text of `Error`, and the `From` conversions are not modelled. The model produces `Io` and `ParseErr` directly where the conversions would.
- `String::from_utf8_lossy` is not modelled: the bytes the player sends are taken as characters.
- Whitespace is the ASCII set (space, and tab through carriage return). Unicode whitespace in `str::trim` and in the regex class `\s` is not modelled.
- Digits are the ASCII digits `0` to `9`. In the `regex` crate, `\d` matches any Unicode decimal digit, so a row whose length is written in, say, Arabic-Indic digits gives a track in the crate (the length is kept as text) and none in the model. The model takes the player's output to be ASCII here.
- `BufRead::read_line` fails with an `InvalidData` error, which the client passes on as `Io`, when the bytes of a line are not UTF-8. The model takes every line the player sends to be valid text and does not produce this error.
- End of stream is not distinguished from a timeout: the end of the scripted input stands for both. In the crate, `read_until` and `read_line` return `Ok` with the partial text when the stream ends. So a last line without a line break, or a greeting without `>`, that is followed by end of stream is accepted by the crate, but in the model it is an `Io` error.
- The `regex` and `lazy_static` crates are not modelled as such. Only the two grammars are written out as matchers.
- The integration tests that need a live player are not part of this model.
- Vlc.Client.SetVolume: the contract speaks of the first and the last reply and of the number of rounds. It does not state that every reply in between read as another volume.
- Vlc.Client.Stop: the contract speaks of the first and the last reply and of the number of rounds. It does not state that every reply in between read as playing.
- Vlc.Client.Play: the contract (with that of `PlayUntilPlaying`) speaks of the last reply and of the number of rounds. It does not state that every reply in between read as not playing.

=== FILE: client.dfy ===
/** The client for the player's remote-control interface: each operation writes one or more
    commands to the connection and reads back and interprets the player's reply. */
module Vlc {
  import opened Errors
  import opened Numbers
  import opened Text
  import opened Media
  import opened Socket

  // ---------------------------------------------------------------------------------------
  // Commands

  /** `text` written `k` times in a row. */
  function Repeat(text: string, k: nat): string
    decreases k
  {
    if k == 0 then [] else Repeat(text, k - 1) + text
  }

  /** What a loop that polls with `query` and answers with `action` writes in `k` rounds:
      the query and the action `k` times, then the query that ends the loop. */
  function PollLog(query: string, action: string, k: nat): (log: string)
    ensures |log| >= |query|
  {
    Repeat(query + action, k) + query
  }

  /** Before the first round, a polling loop has written only its query. */
  lemma PollLogZero(base: string, query: string, action: string)
    ensures base + PollLog(query, action, 0) == base + query
  {
    assert Repeat(query + action, 0) == [];
  }

  /** One more round of a polling loop extends its log by the action and the next query. */
  lemma PollLogStep(base: string, query: string, action: string, k: nat)
    ensures base + PollLog(query, action, k) + action + query == base + PollLog(query, action, k + 1)
  {
    assert Repeat(query + action, k + 1) == Repeat(query + action, k) + (query + action);
  }

  /** The volume `set_volume` asks for: `amt`, capped at `MAX_VOLUME`. */
  function Capped(amt: u8): (v: u8)
    ensures v <= MAX_VOLUME && (v == amt || v == MAX_VOLUME)
    ensures amt <= MAX_VOLUME ==> v == amt
  {
    if amt > MAX_VOLUME then MAX_VOLUME else amt
  }

  /** The command line `set_volume` sends to ask for volume `amt`. */
  function VolumeCommand(amt: u8): string {
    "volume " + NatToString(amt) + "\n"
  }

  /** The player reads the volume back from the command: after `volume ` and before the line
      break stand the decimal digits of `amt`. */
  lemma VolumeCommandParses(amt: u8)
    ensures var c := VolumeCommand(amt);
      |c| > 8 && c[..7] == "volume " && c[|c| - 1] == '\n' && ParseUnsigned(c[7..|c| - 1], U16_MAX) == Some(amt)
  {
    var digits := NatToString(amt);
    ParseUnsignedOfNatToString(amt, U16_MAX);
    var c := VolumeCommand(amt);
    assert c[7..|c| - 1] == digits;
  }

  /** The command line `forward` (`+`) or `rewind` (`-`) sends: a seek by `secs` seconds
      relative to the current position. */
  function SeekCommand(secs: u32, forward: bool): string {
    "seek " + [if forward then '+' else '-'] + NatToString(secs) + "\n"
  }

  /** The player reads the seek back from the command: after `seek ` stands the sign of the
      direction, then the decimal digits of `secs`, then the line break. */
  lemma SeekCommandParses(secs: u32, forward: bool)
    ensures var c := SeekCommand(secs, forward);
      && |c| > 7 && c[..5] == "seek " && c[|c| - 1] == '\n'
      && c[5] == (if forward then '+' else '-')
      && ParseUnsigned(c[6..|c| - 1], U32_MAX) == Some(secs)
  {
    var digits := NatToString(secs);
    ParseUnsignedOfNatToString(secs, U32_MAX);
    var c := SeekCommand(secs, forward);
    assert c[6..|c| - 1] == digits;
  }

  // ---------------------------------------------------------------------------------------
  // Replies

  /** The last element of a non-empty sequence. */
  function Last<T>(xs: seq<T>): T
    requires xs != []
  {
    xs[|xs| - 1]
  }

  /** What `playlist` makes of the text the player sends before its prompt: one track for each
      line that has the form of a playlist entry, in order; other lines are skipped. */
  function PlaylistOf(block: string): seq<Track> {
    FilterMap(Lines(block), TrackFromParts)
  }

  /** What `subtitles` makes of the text the player sends before its prompt: one subtitle track
      for each line that has the form of one, in order. */
  function SubtitlesOf(block: string): seq<Subtitle> {
    FilterMap(Lines(block), SubtitleFromParts)
  }

  /** What `get_volume` makes of a reply: the trimmed reply must be a `u16`, and a value above
      `MAX_VOLUME` is reported as `MAX_VOLUME`. */
  function VolumeReply(line: string): (r: Result<u8>)
    ensures r.Ok? ==> r.value <= MAX_VOLUME
    ensures r.Err? ==> r.error == ParseErr
  {
    match ParseUnsigned(Trim(line), U16_MAX)
    case None => Err(ParseErr)
    case Some(v) => Ok(if v <= MAX_VOLUME then v else MAX_VOLUME)
  }

  /** A reply is a volume exactly when its trimmed text parses as a `u16`; a volume below the
      cap is the parsed number itself. */
  lemma VolumeReplyParses(line: string)
    ensures VolumeReply(line).Ok? <==> ParseUnsigned(Trim(line), U16_MAX).Some?
    ensures VolumeReply(line).Ok? && VolumeReply(line).value < MAX_VOLUME ==>
      ParseUnsigned(Trim(line), U16_MAX) == Some(VolumeReply(line).value)
  {
  }

  /** What `is_playing` makes of a reply: playing exactly when the trimmed reply is `1`. */
  function IsPlayingReply(line: string): bool {
    Trim(line) == "1"
  }

  /** A blank reply never means playing. */
  lemma IsPlayingReplyNotBlank(line: string)
    requires AllSpace(line)
    ensures !IsPlayingReply(line)
  {
    TrimBounds(line);
  }

  /** What `get_time` makes of a reply: the trimmed reply read as a `u32`, or nothing when it
      is not one (a stopped player sends an empty line). */
  function TimeReply(line: string): Option<u32> {
    match ParseUnsigned(Trim(line), U32_MAX)
    case None => None
    case Some(n) => Some(n)
  }

  /** A reply is a time exactly when its trimmed text parses as a `u32`, so a blank reply is
      no time. */
  lemma TimeReplyParses(line: string)
    ensures TimeReply(line).Some? <==> ParseUnsigned(Trim(line), U32_MAX).Some?
    ensures AllSpace(line) ==> TimeReply(line) == None
  {
    TrimBounds(line);
  }

  /** What `get_title` makes of a reply: the trimmed reply, or nothing when it is blank. */
  function TitleReply(line: string): Option<string> {
    var t := Trim(line);
    if |t| != 0 then Some(t) else None
  }

  /** A reply has a title exactly when it is not blank; the title starts and ends with a
      non-space. */
  lemma TitleReplyBounds(line: string)
    ensures TitleReply(line).None? <==> AllSpace(line)
    ensures TitleReply(line).Some? ==>
      var t := TitleReply(line).value;
      |t| > 0 && !IsSpace(t[0]) && !IsSpace(Last(t))
  {
    TrimBounds(line);
  }

  /** A number written after prompt artifacts and before trailing whitespace reads as that
      volume when it fits a `u16`, capped at `MAX_VOLUME`, and as a parse error when it does not. */
  lemma VolumeReplyOf(pre: string, v: nat, post: string)
    requires forall k :: 0 <= k < |pre| ==> IsArtifact(pre[k])
    requires AllSpace(post)
    ensures VolumeReply(Trimmed(pre + NatToString(v) + post))
      == if v > U16_MAX then Err(ParseErr) else if v <= MAX_VOLUME then Ok(v) else Ok(MAX_VOLUME)
  {
    var digits := NatToString(v);
    assert IsDigit(digits[0]) && IsDigit(Last(digits));
    NumberReply(pre, digits, post);
    VolumeOfNumber(Trimmed(pre + digits + post), v);
  }

  /** A reply that trims to the decimal form of `v` reads as `v`, capped, or fails to parse. */
  lemma VolumeOfNumber(line: string, v: nat)
    requires Trim(line) == NatToString(v)
    ensures VolumeReply(line)
      == if v > U16_MAX then Err(ParseErr) else if v <= MAX_VOLUME then Ok(v) else Ok(MAX_VOLUME)
  {
    ParseUnsignedDigits(Trim(line), U16_MAX);
    if v <= U16_MAX {
      assert ParseUnsigned(Trim(line), U16_MAX) == Some(v);
    } else {
      assert ParseUnsigned(Trim(line), U16_MAX) == None;
    }
  }

  /** A reply whose text is `text` after prompt artifacts and before trailing whitespace trims to
      `text`. */
  lemma NumberReply(pre: string, text: string, post: string)
    requires forall k :: 0 <= k < |pre| ==> IsArtifact(pre[k])
    requires AllSpace(post)
    requires |text| > 0 && !IsArtifact(text[0]) && !IsSpace(text[0]) && !IsSpace(Last(text))
    ensures Trim(Trimmed(pre + text + post)) == text
  {
    assert pre + text + post == pre + (text + post);
    TrimmedPrefix(pre, text + post);
    assert [] + text + post == text + post;
    TrimUnique([], text, post);
  }

  /** `1` after prompt artifacts reads as playing; `0` reads as not playing. */
  lemma IsPlayingReplyOf(pre: string, playing: bool, reply: string, post: string)
    requires forall k :: 0 <= k < |pre| ==> IsArtifact(pre[k])
    requires AllSpace(post)
    requires reply == if playing then "1" else "0"
    ensures IsPlayingReply(Trimmed(pre + reply + post)) == playing
  {
    NumberReply(pre, reply, post);
  }

  /** A number of seconds after prompt artifacts reads as that time when it fits a `u32`, and as
      nothing when it does not. */
  lemma TimeReplyOf(pre: string, n: nat, post: string)
    requires forall k :: 0 <= k < |pre| ==> IsArtifact(pre[k])
    requires AllSpace(post)
    ensures TimeReply(Trimmed(pre + NatToString(n) + post)) == if n <= U32_MAX then Some(n) else None
  {
    var digits := NatToString(n);
    assert IsDigit(digits[0]) && IsDigit(Last(digits));
    NumberReply(pre, digits, post);
    ParseUnsignedDigits(digits, U32_MAX);
    if n <= U32_MAX {
      assert ParseUnsigned(digits, U32_MAX) == Some(n);
    } else {
      assert ParseUnsigned(digits, U32_MAX) == None;
    }
  }

  /** A title between leading and trailing whitespace reads as that title. */
  lemma TitleReplyOf(pre: string, title: string, post: string)
    requires AllSpace(pre) && AllSpace(post)
    requires |title| > 0 && !IsSpace(title[0]) && !IsSpace(Last(title))
    ensures TitleReply(pre + title + post) == Some(title)
  {
    TrimUnique(pre, title, post);
  }

  /** Playlist entries, each on its own line, followed by any text, read as those tracks in
      order, then whatever that text holds. */
  lemma PlaylistOfRows(ts: seq<Track>, current: seq<bool>, rows: seq<string>, tail: string)
    requires |current| == |ts| == |rows|
    requires forall i :: 0 <= i < |ts| ==> rows[i] == RowPrefix(current[i]) + TrackText(ts[i])
    requires forall i :: 0 <= i < |ts| ==> IsPrintableTrack(ts[i])
    ensures PlaylistOf(JoinLines(rows) + tail) == ts + PlaylistOf(tail)
  {
    forall i | 0 <= i < |rows|
      ensures IsPlainLine(rows[i])
    {
      TrackRowPlain(ts[i], current[i], rows[i]);
    }
    forall i | 0 <= i < |rows|
      ensures TrackFromParts(rows[i]) == Some(ts[i])
    {
      TrackRowRoundTrip(ts[i], current[i]);
    }
    FilterMapExact(rows, TrackFromParts, ts);
    LinesOfJoin(rows, tail);
    FilterMapAppend(rows, Lines(tail), TrackFromParts);
  }

  /** A track whose playlist line `TrackFromParts` reads back. */
  predicate IsPrintableTrack(t: Track) {
    t.index >= 0 && IsDuration(t.length) && |t.title| > 0 && NoNewline(t.title) && !IsSpace(t.title[0])
  }

  /** A playlist line holds no line break and ends in `)`. */
  lemma TrackRowPlain(t: Track, current: bool, row: string)
    requires IsPrintableTrack(t)
    requires row == RowPrefix(current) + TrackText(t)
    ensures IsPlainLine(row)
  {
    var p := RowPrefix(current);
    var n := IntToString(t.index);
    assert n == NatToString(t.index);
    assert row == p + n + " - " + t.title + " (" + t.length + ")";
    assert '\n' !in p;
    assert '\n' !in n;
    assert '\n' !in t.length;
  }

  /** Subtitle entries, each on its own line, followed by any text, read as those subtitle
      tracks in order, then whatever that text holds. */
  lemma SubtitlesOfRows(ts: seq<Subtitle>, rows: seq<string>, tail: string)
    requires |ts| == |rows|
    requires forall i :: 0 <= i < |ts| ==> rows[i] == "| " + SubtitleText(ts[i])
    requires forall i :: 0 <= i < |ts| ==> IsPrintableSubtitle(ts[i])
    ensures SubtitlesOf(JoinLines(rows) + tail) == ts + SubtitlesOf(tail)
  {
    forall i | 0 <= i < |rows|
      ensures IsPlainLine(rows[i])
    {
      SubtitleRowPlain(ts[i], rows[i]);
    }
    forall i | 0 <= i < |rows|
      ensures SubtitleFromParts(rows[i]) == Some(ts[i])
    {
      SubtitleRowRoundTrip(ts[i]);
    }
    FilterMapExact(rows, SubtitleFromParts, ts);
    LinesOfJoin(rows, tail);
    FilterMapAppend(rows, Lines(tail), SubtitleFromParts);
  }

  /** A subtitle track whose line `SubtitleFromParts` reads back, and that `lines` leaves whole. */
  predicate IsPrintableSubtitle(t: Subtitle) {
    |t.title| > 0 && NoNewline(t.title) && !IsSpace(t.title[0]) && Last(t.title) != '\r'
  }

  /** A subtitle line holds no line break and does not end in `\r`. */
  lemma SubtitleRowPlain(t: Subtitle, row: string)
    requires IsPrintableSubtitle(t)
    requires row == "| " + SubtitleText(t)
    ensures IsPlainLine(row)
  {
    var n := IntToString(t.index);
    if t.index < 0 {
      assert n == "-" + NatToString(-(t.index as int));
    } else {
      assert n == NatToString(t.index);
    }
    assert row == "| " + n + " - " + t.title;
    assert '\n' !in n;
    assert Last(row) == Last(t.title);
  }

  // ---------------------------------------------------------------------------------------
  // The client

  /** The player answered with the line from `from` to `to`, which the socket read and logged,
      trimmed, after the replies in `before`. */
  ghost predicate Answered(input: string, from: nat, to: nat, before: seq<string>, after: seq<string>) {
    EndsAt(input, from, to, '\n') && after == before + [Trimmed(input[from..to])]
  }

  /** The player sent no further line: the read from `from` timed out at the end of `input`
      and logged nothing. */
  ghost predicate Silent(input: string, from: nat, to: nat, before: seq<string>, after: seq<string>) {
    from <= to == |input| && '\n' !in input[from..] && after == before
  }

  /** The replies `rs` are the lines the socket read one after another from `from`, each
      trimmed, the last of them ending just before `to`. */
  ghost predicate LinesRead(input: string, from: nat, to: nat, rs: seq<string>)
    decreases |rs|
  {
    if rs == [] then from == to
    else exists mid: nat ::
      && mid <= to
      && LinesRead(input, from, mid, rs[..|rs| - 1])
      && EndsAt(input, mid, to, '\n')
      && Last(rs) == Trimmed(input[mid..to])
  }

  /** What a polling loop that began reading at `from` has read: its replies `rs` are the next
      lines of `input`, read one after another; when its last query was answered the cursor
      `pos` stands just past the last of them, and otherwise the read after them ran to the end
      of `input` without finding a line break. */
  ghost predicate PolledLines(input: string, from: nat, pos: nat, rs: seq<string>, answered: bool) {
    exists p: nat :: PolledThrough(input, from, pos, p, rs, answered)
  }

  /** `PolledLines`, with `p` the end of the last line read. */
  ghost predicate PolledThrough(input: string, from: nat, pos: nat, p: nat, rs: seq<string>, answered: bool) {
    && LinesRead(input, from, p, rs)
    && (answered ==> pos == p)
    && (!answered ==> p <= pos == |input| && '\n' !in input[p..])
  }

  /** A line answered after the replies a polling loop has read so far extends them by one. */
  lemma LinesReadStep(input: string, from: nat, p: nat, to: nat, before: seq<string>, after: seq<string>, n0: nat)
    requires n0 <= |before| && LinesRead(input, from, p, before[n0..])
    requires Answered(input, p, to, before, after)
    ensures LinesRead(input, from, to, after[n0..])
  {
    var rs := after[n0..];
    assert rs == before[n0..] + [Trimmed(input[p..to])];
    assert rs[..|rs| - 1] == before[n0..];
  }

  /** The first of the lines read from `from` is the one that ends at the first line break
      after `from`. */
  lemma LinesReadFirst(input: string, from: nat, to: nat, rs: seq<string>) returns (e: nat)
    requires rs != [] && LinesRead(input, from, to, rs)
    ensures EndsAt(input, from, e, '\n') && rs[0] == Trimmed(input[from..e])
    decreases |rs|
  {
    var mid: nat :| && mid <= to
                    && LinesRead(input, from, mid, rs[..|rs| - 1])
                    && EndsAt(input, mid, to, '\n')
                    && Last(rs) == Trimmed(input[mid..to]);
    if |rs| == 1 {
      e := to;
    } else {
      e := LinesReadFirst(input, from, mid, rs[..|rs| - 1]);
    }
  }

  /** Whatever a polling loop read after it, its first reply is the first line after `from`. */
  lemma FirstPolled(input: string, from: nat, to: nat, rs: seq<string>, e: nat)
    requires rs != [] && LinesRead(input, from, to, rs) && EndsAt(input, from, e, '\n')
    ensures rs[0] == Trimmed(input[from..e])
  {
    var e' := LinesReadFirst(input, from, to, rs);
    EndsAtUnique(input, from, e, e', '\n');
  }

  /** One more query of a polling loop whose reads so far ended at `p`: answered, it adds the
      line it read; unanswered, it leaves the replies as they were, at the end of the input. */
  lemma PolledStep(input: string, from: nat, p: nat, to: nat, before: seq<string>, after: seq<string>, n0: nat, answered: bool)
    requires n0 <= |before| && LinesRead(input, from, p, before[n0..])
    requires answered ==> Answered(input, p, to, before, after)
    requires !answered ==> Silent(input, p, to, before, after)
    ensures |after| >= n0
    ensures PolledThrough(input, from, to, if answered then to else p, after[n0..], answered)
  {
    if answered {
      LinesReadStep(input, from, p, to, before, after, n0);
    }
  }

  /** A connection to the player's remote-control interface (`Client`). */
  class Client {
    const socket: IoSocket

    ghost predicate Valid()
      reads this, socket
    {
      socket.Valid()
    }

    /** A client over an open connection. */
    constructor Over(socket: IoSocket)
      requires socket.Valid()
      ensures Valid() && this.socket == socket
    {
      this.socket := socket;
    }

    /** `Client::connect`: opens the connection and reads the player's greeting. */
    static method Connect(input: string) returns (r: Result<Client>)
      ensures r.Ok? ==> fresh(r.value) && fresh(r.value.socket) && r.value.Valid()
      ensures r.Ok? ==> r.value.socket.input == input && r.value.socket.sent == [] && r.value.socket.replies == []
      ensures r.Ok? ==> EndsAt(input, 0, r.value.socket.pos, PROMPT)
      ensures r.Err? ==> r.error == Io && PROMPT !in input
    {
      var socket := IoSocket.Connect(input);
      if socket.Err? {
        return Err(socket.error);
      }
      var client := new Client.Over(socket.value);
      return Ok(client);
    }

    /** Writes `command` as a line and reads one reply line. */
    method Ask(command: string) returns (r: Result<string>)
      requires Valid()
      modifies socket
      ensures Valid() && socket.sent == old(socket.sent) + command + "\n"
      ensures r.Ok? ==> Answered(socket.input, old(socket.pos), socket.pos, old(socket.replies), socket.replies) && r.value == Last(socket.replies)
      ensures r.Err? ==> r.error == Io && Silent(socket.input, old(socket.pos), socket.pos, old(socket.replies), socket.replies)
    {
      socket.Write(command + "\n");
      ghost var from := socket.pos;
      var n, line := socket.ReadLine([]);
      if n.Err? {
        return Err(n.error);
      }
      assert [] + socket.input[from..socket.pos] == socket.input[from..socket.pos];
      return Ok(line);
    }

    /** `Client::playlist`: asks for the playlist and reads the tracks listed before the next
        prompt. */
    method Playlist() returns (r: Result<seq<Track>>)
      requires Valid()
      modifies socket
      ensures Valid() && socket.sent == old(socket.sent) + "playlist\n" && socket.replies == old(socket.replies)
      ensures r.Ok? ==> EndsAt(socket.input, old(socket.pos), socket.pos, PROMPT)
      ensures r.Ok? ==> r.value == PlaylistOf(socket.input[old(socket.pos)..socket.pos])
      ensures r.Err? ==> r.error == Io && socket.pos == |socket.input| && PROMPT !in socket.input[old(socket.pos)..]
    {
      socket.Write("playlist\n");
      var n, block := socket.ReadUntil(PROMPT, []);
      if n.Err? {
        return Err(n.error);
      }
      assert block == socket.input[old(socket.pos)..socket.pos];
      return Ok(PlaylistOf(block));
    }

    /** `Client::subtitles`: asks for the subtitle tracks and reads those listed before the
        next prompt. */
    method Subtitles() returns (r: Result<seq<Subtitle>>)
      requires Valid()
      modifies socket
      ensures Valid() && socket.sent == old(socket.sent) + "strack\n" && socket.replies == old(socket.replies)
      ensures r.Ok? ==> EndsAt(socket.input, old(socket.pos), socket.pos, PROMPT)
      ensures r.Ok? ==> r.value == SubtitlesOf(socket.input[old(socket.pos)..socket.pos])
      ensures r.Err? ==> r.error == Io && socket.pos == |socket.input| && PROMPT !in socket.input[old(socket.pos)..]
    {
      socket.Write("strack\n");
      var n, block := socket.ReadUntil(PROMPT, []);
      if n.Err? {
        return Err(n.error);
      }
      assert block == socket.input[old(socket.pos)..socket.pos];
      return Ok(SubtitlesOf(block));
    }

    /** `Client::get_volume`: asks for the volume and reads it from the reply, capped at
        `MAX_VOLUME`. */
    method GetVolume() returns (r: Result<u8>)
      requires Valid()
      modifies socket
      ensures Valid() && socket.sent == old(socket.sent) + "volume\n"
      ensures r.Ok? ==> r.value <= MAX_VOLUME
      ensures r != Err(Io) ==> Answered(socket.input, old(socket.pos), socket.pos, old(socket.replies), socket.replies) && r == VolumeReply(Last(socket.replies))
      ensures r == Err(Io) ==> Silent(socket.input, old(socket.pos), socket.pos, old(socket.replies), socket.replies)
    {
      var line := Ask("volume");
      if line.Err? {
        r := Err(line.error);
        return;
      }
      ghost var last := Last(socket.replies);
      assert line.value == last;
      r := VolumeReply(line.value);
    }

    /** `GetVolume` as one query of a polling loop that began reading at `from`, with the
        replies from index `n0` on read up to `p`: it extends them by the line it reads. */
    method PollVolume(ghost from: nat, ghost n0: nat, ghost p: nat) returns (r: Result<u8>, ghost p': nat)
      requires Valid() && n0 <= |socket.replies| && socket.pos == p
      requires LinesRead(socket.input, from, p, socket.replies[n0..])
      modifies socket
      ensures Valid() && socket.sent == old(socket.sent) + "volume\n"
      ensures |socket.replies| == |old(socket.replies)| + (if r != Err(Io) then 1 else 0)
      ensures r != Err(Io) ==> old(socket.pos) < socket.pos && VolumeReply(Last(socket.replies)) == r
      ensures r != Err(Io) ==>
        EndsAt(socket.input, old(socket.pos), socket.pos, '\n') && VolumeReply(Trimmed(socket.input[old(socket.pos)..socket.pos])) == r
      ensures r == Err(Io) ==> socket.pos == |socket.input|
      ensures PolledThrough(socket.input, from, socket.pos, p', socket.replies[n0..], r != Err(Io))
    {
      ghost var before := socket.replies;
      r := GetVolume();
      PolledStep(socket.input, from, p, socket.pos, before, socket.replies, n0, r != Err(Io));
      p' := if r != Err(Io) then socket.pos else p;
    }

    /** `Client::set_volume`: caps `amt` at `MAX_VOLUME`, then asks for the volume and, while
        the player reports another one, asks for `amt` and asks again. It returns once the
        player reports `amt`, or with the first error. */
    method SetVolume(amt: u8) returns (r: Result<()>)
      requires Valid()
      modifies socket
      ensures Valid()
      ensures exists k: nat ::
        && socket.sent == old(socket.sent) + PollLog("volume\n", VolumeCommand(Capped(amt)), k)
        && |socket.replies| == |old(socket.replies)| + k + (if r == Err(Io) then 0 else 1)
      ensures |socket.replies| >= |old(socket.replies)|
      ensures r.Ok? ==> |socket.replies| > |old(socket.replies)| && VolumeReply(Last(socket.replies)) == Ok(Capped(amt))
      ensures r == Err(ParseErr) ==>
        |socket.replies| > |old(socket.replies)| && VolumeReply(Last(socket.replies)) == Err(ParseErr)
      ensures r == Err(Io) ==> socket.pos == |socket.input|
      ensures |socket.replies| > |old(socket.replies)| && VolumeReply(socket.replies[|old(socket.replies)|]) == Ok(Capped(amt))
        ==> r == Ok(()) && socket.sent == old(socket.sent) + "volume\n"
      ensures PolledLines(socket.input, old(socket.pos), socket.pos, socket.replies[|old(socket.replies)|..], r != Err(Io))
    {
      var target := Capped(amt);
      ghost var p, first, firstEnd;
      r, p, first, firstEnd := AwaitVolume(target);
      ghost var n0 := |old(socket.replies)|;
      if |socket.replies| > n0 {
        FirstPolled(socket.input, old(socket.pos), p, socket.replies[n0..], firstEnd);
        assert socket.replies[n0..][0] == socket.replies[n0];
      }
    }

    /** The loop of `Client::set_volume`, polling for the volume `target`. Besides the result,
        it gives the end `p` of the last line it read and, as `first`, what the first reply said
        and where its line ends. */
    method AwaitVolume(target: u8) returns (r: Result<()>, ghost p: nat, ghost first: Result<u8>, ghost firstEnd: nat)
      requires Valid()
      modifies socket
      ensures Valid()
      ensures exists k: nat ::
        && socket.sent == old(socket.sent) + PollLog("volume\n", VolumeCommand(target), k)
        && |socket.replies| == |old(socket.replies)| + k + (if r == Err(Io) then 0 else 1)
      ensures r.Ok? ==> |socket.replies| > |old(socket.replies)| && VolumeReply(Last(socket.replies)) == Ok(target)
      ensures r == Err(ParseErr) ==>
        |socket.replies| > |old(socket.replies)| && VolumeReply(Last(socket.replies)) == Err(ParseErr)
      ensures r == Err(Io) ==> socket.pos == |socket.input|
      ensures PolledThrough(socket.input, old(socket.pos), socket.pos, p, socket.replies[|old(socket.replies)|..], r != Err(Io))
      ensures first == Err(Io) ==> |socket.replies| == |old(socket.replies)|
      ensures first != Err(Io) ==>
        EndsAt(socket.input, old(socket.pos), firstEnd, '\n') && VolumeReply(Trimmed(socket.input[old(socket.pos)..firstEnd])) == first
      ensures first == Ok(target) ==> r == Ok(()) && socket.sent == old(socket.sent) + "volume\n"
    {
      ghost var n0 := |socket.replies|;
      ghost var k: nat := 0;
      p := socket.pos;
      assert socket.replies[n0..] == [];
      var volume;
      volume, p := PollVolume(old(socket.pos), n0, p);
      first, firstEnd := volume, socket.pos;
      PollLogZero(old(socket.sent), "volume\n", VolumeCommand(target));
      while volume.Ok? && volume.value != target
        invariant Valid()
        invariant socket.sent == old(socket.sent) + PollLog("volume\n", VolumeCommand(target), k)
        invariant volume != Err(Io) ==> |socket.replies| == n0 + k + 1
        invariant volume == Err(Io) ==> |socket.replies| == n0 + k
        invariant volume != Err(Io) ==> VolumeReply(Last(socket.replies)) == volume
        invariant volume == Err(Io) ==> socket.pos == |socket.input|
        invariant k == 0 ==> volume == first
        invariant k > 0 ==> first.Ok? && first.value != target
        invariant PolledThrough(socket.input, old(socket.pos), socket.pos, p, socket.replies[n0..], volume != Err(Io))
        decreases |socket.input| - socket.pos, if volume.Ok? then 1 else 0
      {
        socket.Write(VolumeCommand(target));
        volume, p := PollVolume(old(socket.pos), n0, p);
        PollLogStep(old(socket.sent), "volume\n", VolumeCommand(target), k);
        k := k + 1;
      }
      r := if volume.Err? then Err(volume.error) else Ok(());
      assert && socket.sent == old(socket.sent) + PollLog("volume\n", VolumeCommand(target), k)
             && |socket.replies| == |old(socket.replies)| + k + (if r == Err(Io) then 0 else 1);
    }

    /** `Client::is_playing`: asks whether a track is playing (a paused one counts). */
    method IsPlaying() returns (r: Result<bool>)
      requires Valid()
      modifies socket
      ensures Valid() && socket.sent == old(socket.sent) + "is_playing\n"
      ensures r.Ok? ==> Answered(socket.input, old(socket.pos), socket.pos, old(socket.replies), socket.replies) && r.value == IsPlayingReply(Last(socket.replies))
      ensures r.Err? ==> r.error == Io && Silent(socket.input, old(socket.pos), socket.pos, old(socket.replies), socket.replies)
    {
      var line := Ask("is_playing");
      if line.Err? {
        r := Err(line.error);
        return;
      }
      ghost var last := Last(socket.replies);
      assert line.value == last;
      r := Ok(IsPlayingReply(line.value));
    }

    /** `IsPlaying` as one query of a polling loop that began reading at `from`, with the replies
        from index `n0` on read up to `p`: it extends them by the line it reads. */
    method PollIsPlaying(ghost from: nat, ghost n0: nat, ghost p: nat) returns (r: Result<bool>, ghost p': nat)
      requires Valid() && n0 <= |socket.replies| && socket.pos == p
      requires LinesRead(socket.input, from, p, socket.replies[n0..])
      modifies socket
      ensures Valid() && socket.sent == old(socket.sent) + "is_playing\n"
      ensures old(socket.replies) <= socket.replies
      ensures |socket.replies| == |old(socket.replies)| + (if r.Ok? then 1 else 0)
      ensures r.Ok? ==> old(socket.pos) < socket.pos && IsPlayingReply(Last(socket.replies)) == r.value
      ensures r.Err? ==> r.error == Io && socket.pos == |socket.input|
      ensures PolledThrough(socket.input, from, socket.pos, p', socket.replies[n0..], r.Ok?)
    {
      ghost var before := socket.replies;
      r := IsPlaying();
      PolledStep(socket.input, from, p, socket.pos, before, socket.replies, n0, r.Ok?);
      p' := if r.Ok? then socket.pos else p;
    }

    /** `Client::play`: asks for the playlist; when it is not empty, asks whether a track is
        playing and, while none is, sends `play` and asks again. */
    method Play() returns (r: Result<()>)
      requires Valid()
      modifies socket
      ensures Valid()
      ensures forall e: nat :: EndsAt(socket.input, old(socket.pos), e, PROMPT) && PlaylistOf(socket.input[old(socket.pos)..e]) == [] ==>
        && r == Ok(()) && socket.pos == e && socket.replies == old(socket.replies)
        && socket.sent == old(socket.sent) + "playlist\n"
      ensures forall e: nat :: EndsAt(socket.input, old(socket.pos), e, PROMPT) && PlaylistOf(socket.input[old(socket.pos)..e]) != [] ==>
        && (exists k: nat ::
             && socket.sent == old(socket.sent) + "playlist\n" + PollLog("is_playing\n", "play\n", k)
             && |socket.replies| == |old(socket.replies)| + k + (if r.Err? then 0 else 1))
        && (r.Ok? ==> |socket.replies| > |old(socket.replies)| && IsPlayingReply(Last(socket.replies)))
        && PolledLines(socket.input, e, socket.pos, socket.replies[|old(socket.replies)|..], r.Ok?)
      ensures PROMPT !in socket.input[old(socket.pos)..] ==>
        r == Err(Io) && socket.sent == old(socket.sent) + "playlist\n" && socket.replies == old(socket.replies)
      ensures socket.sent == old(socket.sent) + "playlist\n" ||
        exists k: nat :: socket.sent == old(socket.sent) + "playlist\n" + PollLog("is_playing\n", "play\n", k)
      ensures |socket.replies| >= |old(socket.replies)|
      ensures r.Ok? && |socket.replies| > |old(socket.replies)| ==> IsPlayingReply(Last(socket.replies))
      ensures r.Err? ==> r.error == Io && socket.pos == |socket.input|
    {
      var playlist := Playlist();
      if playlist.Err? {
        forall e: nat | true
          ensures !EndsAt(socket.input, old(socket.pos), e, PROMPT)
        {
          NoEndWithoutDelim(socket.input, old(socket.pos), e, PROMPT);
        }
        return Err(playlist.error);
      }
      ghost var read := socket.pos;
      forall e: nat | EndsAt(socket.input, old(socket.pos), e, PROMPT)
        ensures e == read
      {
        EndsAtUnique(socket.input, old(socket.pos), e, read, PROMPT);
      }
      if playlist.value == [] {
        return Ok(());
      }
      ghost var s0 := socket.sent;
      r := PlayUntilPlaying();
      ghost var k: nat :| && socket.sent == s0 + PollLog("is_playing\n", "play\n", k)
                         && |socket.replies| == |old(socket.replies)| + k + (if r.Err? then 0 else 1);
    }

    /** The loop of `Client::play` once the playlist is known not to be empty: asks whether a
        track is playing and, while none is, sends `play` and asks again. */
    method PlayUntilPlaying() returns (r: Result<()>)
      requires Valid()
      modifies socket
      ensures Valid()
      ensures exists k: nat ::
        && socket.sent == old(socket.sent) + PollLog("is_playing\n", "play\n", k)
        && |socket.replies| == |old(socket.replies)| + k + (if r.Err? then 0 else 1)
      ensures r.Ok? ==> |socket.replies| > |old(socket.replies)| && IsPlayingReply(Last(socket.replies))
      ensures r.Err? ==> r.error == Io && socket.pos == |socket.input|
      ensures PolledLines(socket.input, old(socket.pos), socket.pos, socket.replies[|old(socket.replies)|..], r.Ok?)
    {
      ghost var n0 := |socket.replies|;
      ghost var k: nat := 0;
      ghost var p: nat := socket.pos;
      assert socket.replies[n0..] == [];
      var playing;
      playing, p := PollIsPlaying(old(socket.pos), n0, p);
      PollLogZero(old(socket.sent), "is_playing\n", "play\n");
      while playing == Ok(false)
        invariant Valid()
        invariant socket.sent == old(socket.sent) + PollLog("is_playing\n", "play\n", k)
        invariant playing.Ok? ==> |socket.replies| == n0 + k + 1
        invariant playing.Err? ==> |socket.replies| == n0 + k
        invariant playing.Ok? ==> IsPlayingReply(Last(socket.replies)) == playing.value
        invariant playing.Err? ==> playing.error == Io && socket.pos == |socket.input|
        invariant PolledThrough(socket.input, old(socket.pos), socket.pos, p, socket.replies[n0..], playing.Ok?)
        decreases |socket.input| - socket.pos, if playing.Ok? then 1 else 0
      {
        socket.Write("play\n");
        playing, p := PollIsPlaying(old(socket.pos), n0, p);
        PollLogStep(old(socket.sent), "is_playing\n", "play\n", k);
        k := k + 1;
      }
      r := if playing.Err? then Err(playing.error) else Ok(());
      assert && socket.sent == old(socket.sent) + PollLog("is_playing\n", "play\n", k)
             && |socket.replies| == |old(socket.replies)| + k + (if r.Err? then 0 else 1);
      assert PolledThrough(socket.input, old(socket.pos), socket.pos, p, socket.replies[n0..], r.Ok?);
    }

    /** `Client::stop`: asks whether a track is playing and, while one is, sends `stop` and asks
        again. */
    method Stop() returns (r: Result<()>)
      requires Valid()
      modifies socket
      ensures Valid()
      ensures exists k: nat ::
        && socket.sent == old(socket.sent) + PollLog("is_playing\n", "stop\n", k)
        && |socket.replies| == |old(socket.replies)| + k + (if r.Err? then 0 else 1)
      ensures |socket.replies| >= |old(socket.replies)|
      ensures r.Ok? ==> |socket.replies| > |old(socket.replies)| && !IsPlayingReply(Last(socket.replies))
      ensures r.Err? ==> r.error == Io && socket.pos == |socket.input|
      ensures |socket.replies| > |old(socket.replies)| && !IsPlayingReply(socket.replies[|old(socket.replies)|])
        ==> r == Ok(()) && socket.sent == old(socket.sent) + "is_playing\n"
      ensures PolledLines(socket.input, old(socket.pos), socket.pos, socket.replies[|old(socket.replies)|..], r.Ok?)
    {
      ghost var n0 := |socket.replies|;
      ghost var k: nat := 0;
      ghost var p: nat := socket.pos;
      assert socket.replies[n0..] == [];
      var playing;
      playing, p := PollIsPlaying(old(socket.pos), n0, p);
      ghost var firstLine := if playing.Ok? then Last(socket.replies) else [];
      PollLogZero(old(socket.sent), "is_playing\n", "stop\n");
      while playing == Ok(true)
        invariant Valid()
        invariant socket.sent == old(socket.sent) + PollLog("is_playing\n", "stop\n", k)
        invariant playing.Ok? ==> |socket.replies| == n0 + k + 1
        invariant playing.Err? ==> |socket.replies| == n0 + k
        invariant playing.Ok? ==> |socket.replies| > n0 && IsPlayingReply(Last(socket.replies)) == playing.value
        invariant playing.Err? ==> playing.error == Io && socket.pos == |socket.input|
        invariant k > 0 ==> IsPlayingReply(firstLine)
        invariant playing.Ok? || k > 0 ==> socket.replies[n0] == firstLine
        invariant PolledThrough(socket.input, old(socket.pos), socket.pos, p, socket.replies[n0..], playing.Ok?)
        decreases |socket.input| - socket.pos, if playing.Ok? then 1 else 0
      {
        socket.Write("stop\n");
        playing, p := PollIsPlaying(old(socket.pos), n0, p);
        PollLogStep(old(socket.sent), "is_playing\n", "stop\n", k);
        k := k + 1;
      }
      r := if playing.Err? then Err(playing.error) else Ok(());
      assert && socket.sent == old(socket.sent) + PollLog("is_playing\n", "stop\n", k)
             && |socket.replies| == |old(socket.replies)| + k + (if r.Err? then 0 else 1);
      assert PolledThrough(socket.input, old(socket.pos), socket.pos, p, socket.replies[n0..], r.Ok?);
    }

    /** `Client::pause`: asks whether a track is playing and, if one is, sends `play` and then
        `pause`, which pauses it whether or not it was paused already. */
    method Pause() returns (r: Result<()>)
      requires Valid()
      modifies socket
      ensures Valid()
      ensures r.Err? ==> r.error == Io && Silent(socket.input, old(socket.pos), socket.pos, old(socket.replies), socket.replies) && socket.sent == old(socket.sent) + "is_playing\n"
      ensures r.Ok? ==> Answered(socket.input, old(socket.pos), socket.pos, old(socket.replies), socket.replies)
      ensures r.Ok? && IsPlayingReply(Last(socket.replies)) ==>
        socket.sent == old(socket.sent) + "is_playing\n" + "play\n" + "pause\n"
      ensures r.Ok? && !IsPlayingReply(Last(socket.replies)) ==> socket.sent == old(socket.sent) + "is_playing\n"
    {
      var playing := IsPlaying();
      if playing.Err? {
        return Err(playing.error);
      }
      if playing.value {
        socket.Write("play\n");
        socket.Write("pause\n");
      }
      return Ok(());
    }

    /** `Client::get_time`: asks for the elapsed time of the current track, in seconds. */
    method GetTime() returns (r: Result<Option<u32>>)
      requires Valid()
      modifies socket
      ensures Valid() && socket.sent == old(socket.sent) + "get_time\n"
      ensures r.Ok? ==> Answered(socket.input, old(socket.pos), socket.pos, old(socket.replies), socket.replies) && r.value == TimeReply(Last(socket.replies))
      ensures r.Err? ==> r.error == Io && Silent(socket.input, old(socket.pos), socket.pos, old(socket.replies), socket.replies)
    {
      var line := Ask("get_time");
      if line.Err? {
        r := Err(line.error);
        return;
      }
      ghost var last := Last(socket.replies);
      assert line.value == last;
      r := Ok(TimeReply(line.value));
    }

    /** `Client::get_title`: asks for the title of the current track. */
    method GetTitle() returns (r: Result<Option<string>>)
      requires Valid()
      modifies socket
      ensures Valid() && socket.sent == old(socket.sent) + "get_title\n"
      ensures r.Ok? ==> Answered(socket.input, old(socket.pos), socket.pos, old(socket.replies), socket.replies) && r.value == TitleReply(Last(socket.replies))
      ensures r.Err? ==> r.error == Io && Silent(socket.input, old(socket.pos), socket.pos, old(socket.replies), socket.replies)
    {
      var line := Ask("get_title");
      if line.Err? {
        r := Err(line.error);
        return;
      }
      ghost var last := Last(socket.replies);
      assert line.value == last;
      r := Ok(TitleReply(line.value));
    }

    /** `Client::forward`: seeks `secs` seconds forward in the current track. */
    method Forward(secs: u32) returns (r: Result<()>)
      requires Valid()
      modifies socket
      ensures Valid() && r == Ok(()) && socket.sent == old(socket.sent) + SeekCommand(secs, true)
      ensures socket.pos == old(socket.pos) && socket.replies == old(socket.replies)
    {
      socket.Write(SeekCommand(secs, true));
      return Ok(());
    }

    /** `Client::rewind`: seeks `secs` seconds back in the current track. */
    method Rewind(secs: u32) returns (r: Result<()>)
      requires Valid()
      modifies socket
      ensures Valid() && r == Ok(()) && socket.sent == old(socket.sent) + SeekCommand(secs, false)
      ensures socket.pos == old(socket.pos) && socket.replies == old(socket.replies)
    {
      socket.Write(SeekCommand(secs, false));
      return Ok(());
    }

    /** `Client::next`: moves to the next track in the playlist. */
    method Next() returns (r: Result<()>)
      requires Valid()
      modifies socket
      ensures Valid() && r == Ok(()) && socket.sent == old(socket.sent) + "next\n"
      ensures socket.pos == old(socket.pos) && socket.replies == old(socket.replies)
    {
      socket.Write("next\n");
      return Ok(());
    }

    /** `Client::prev`: moves to the previous track in the playlist. */
    method Prev() returns (r: Result<()>)
      requires Valid()
      modifies socket
      ensures Valid() && r == Ok(()) && socket.sent == old(socket.sent) + "prev\n"
      ensures socket.pos == old(socket.pos) && socket.replies == old(socket.replies)
    {
      socket.Write("prev\n");
      return Ok(());
    }

    /** `Client::fullscreen`: turns full-screen mode on or off. */
    method Fullscreen(on: bool) returns (r: Result<()>)
      requires Valid()
      modifies socket
      ensures Valid() && r == Ok(())
      ensures socket.sent == old(socket.sent) + (if on then "fullscreen on\n" else "fullscreen off\n")
      ensures socket.pos == old(socket.pos) && socket.replies == old(socket.replies)
    {
      socket.Write("fullscreen " + (if on then "on" else "off") + "\n");
      return Ok(());
    }
  }
}

=== FILE: errors.dfy ===
/** The crate-level error type and the standard `Option`/`Result` shapes the client returns. */
module Errors {

  /** What can go wrong when talking to the player: a transport failure (`Io`) or a reply that
      did not have the textual form a value needed (`ParseErr`). The wrapped `std::io::Error`
      of the `Io` variant carries no information this model uses, so it is dropped. */
  datatype Error = Io | ParseErr

  datatype Option<+T> = None | Some(value: T)

  /** `crate::Result<T>`, i.e. `std::result::Result<T, Error>`. */
  datatype Result<+T> = Ok(value: T) | Err(error: Error)
}

=== FILE: media.dfy ===
/** Records built from the player's console listings (playlist rows and subtitle-track rows),
    their `Display` forms, and the two line grammars that recognise them.

    Each grammar is a regular expression searched for anywhere in the line, leftmost match
    first, with the priorities of a backtracking matcher: greedy repetitions try their
    longest extent first and give characters back one at a time. The matchers below make
    those choices explicitly, and the lemmas tie them to a declarative statement of the
    grammar. */
module Media {
  import opened Errors
  import opened Numbers

  /** The volume bounds: the player's volume setting lies in [MIN_VOLUME, MAX_VOLUME]. */
  const MIN_VOLUME: u8 := 0
  const MAX_VOLUME: u8 := 200

  /** A row of the player's playlist. `length` is kept as the `HH:MM:SS` text it was read as. */
  datatype Track = Track(index: i32, title: string, length: string)

  /** A subtitle track of the current media; a negative index is a sentinel such as "Disable". */
  datatype Subtitle = Subtitle(index: i32, title: string)

  /** `Display` for a track: `<index> - <title> (<length>)`. */
  function TrackText(t: Track): string {
    IntToString(t.index) + " - " + t.title + " (" + t.length + ")"
  }

  /** `Display` for a subtitle track: `<index> - <title>`. */
  function SubtitleText(t: Subtitle): string {
    IntToString(t.index) + " - " + t.title
  }

  /** A text on one line. */
  predicate NoNewline(s: string) {
    '\n' !in s
  }

  // ---------------------------------------------------------------------------------------
  // Character classes over a stretch `[a, b)` of a line

  predicate SpacesAt(s: string, a: nat, b: nat) {
    a <= b <= |s| && forall k :: a <= k < b ==> IsSpace(s[k])
  }

  predicate DigitsAt(s: string, a: nat, b: nat) {
    a <= b <= |s| && forall k :: a <= k < b ==> IsDigit(s[k])
  }

  /** What `.` repetitions may cover: anything but a newline. */
  predicate NoNewlineAt(s: string, a: nat, b: nat) {
    a <= b <= |s| && forall k :: a <= k < b ==> s[k] != '\n'
  }

  /** End of the maximal run of whitespace starting at `i` (what a greedy `\s*` consumes). */
  function SpaceEnd(s: string, i: nat): (j: nat)
    requires i <= |s|
    ensures i <= j && SpacesAt(s, i, j)
    ensures j < |s| ==> !IsSpace(s[j])
    decreases |s| - i
  {
    if i < |s| && IsSpace(s[i]) then SpaceEnd(s, i + 1) else i
  }

  /** End of the maximal run of digits starting at `i` (what a greedy `\d*` consumes). */
  function DigitEnd(s: string, i: nat): (j: nat)
    requires i <= |s|
    ensures i <= j && DigitsAt(s, i, j)
    ensures j < |s| ==> !IsDigit(s[j])
    decreases |s| - i
  {
    if i < |s| && IsDigit(s[i]) then DigitEnd(s, i + 1) else i
  }

  /** End of the line containing position `i`: the first newline at or after `i`, or the end
      of the text (how far a `.` repetition can reach). */
  function LineEnd(s: string, i: nat): (j: nat)
    requires i <= |s|
    ensures i <= j && NoNewlineAt(s, i, j)
    ensures j < |s| ==> s[j] == '\n'
    decreases |s| - i
  {
    if i < |s| && s[i] != '\n' then LineEnd(s, i + 1) else i
  }

  /** A whitespace run from `i` that stops before a non-space ends where `SpaceEnd` says. */
  lemma SpaceEndAt(s: string, i: nat, j: nat)
    requires i <= j && SpacesAt(s, i, j)
    requires j < |s| ==> !IsSpace(s[j])
    ensures SpaceEnd(s, i) == j
  {
  }

  lemma LineEndAt(s: string, i: nat, j: nat)
    requires i <= j && NoNewlineAt(s, i, j)
    requires j < |s| ==> s[j] == '\n'
    ensures LineEnd(s, i) == j
  {
  }

  /** The greedy whitespace run from `i` covers every whitespace run from `i`. */
  lemma SpaceEndCovers(s: string, i: nat, j: nat)
    requires i <= j && SpacesAt(s, i, j)
    ensures j <= SpaceEnd(s, i)
  {
  }

  lemma DigitEndAt(s: string, i: nat, j: nat)
    requires i <= j && DigitsAt(s, i, j)
    requires j < |s| ==> !IsDigit(s[j])
    ensures DigitEnd(s, i) == j
  {
  }

  /** The first present element of `xs` and its position. */
  function FirstSome<T>(xs: seq<Option<T>>): (r: Option<(nat, T)>)
    ensures r.Some? ==> r.value.0 < |xs| && xs[r.value.0] == Some(r.value.1)
    ensures r.Some? ==> forall k :: 0 <= k < r.value.0 ==> xs[k].None?
    ensures r.None? ==> forall k :: 0 <= k < |xs| ==> xs[k].None?
  {
    if xs == [] then None
    else if xs[0].Some? then Some((0, xs[0].value))
    else
      match FirstSome(xs[1..])
      case None => None
      case Some((k, v)) => Some((k + 1, v))
  }

  // ---------------------------------------------------------------------------------------
  // Pieces of the grammars

  /** `\d\d:\d\d:\d\d` at position `p`. */
  predicate DurationAt(s: string, p: nat) {
    && p + 8 <= |s|
    && IsDigit(s[p]) && IsDigit(s[p + 1]) && s[p + 2] == ':'
    && IsDigit(s[p + 3]) && IsDigit(s[p + 4]) && s[p + 5] == ':'
    && IsDigit(s[p + 6]) && IsDigit(s[p + 7])
  }

  /** A track length as the playlist prints it: `HH:MM:SS`. */
  predicate IsDuration(d: string) {
    |d| == 8 && DurationAt(d, 0)
  }

  /** `\s\(\d\d:\d\d:\d\d` occurs at position `p`: the text that must follow a track's title. */
  predicate LengthAt(s: string, p: nat) {
    p + 10 <= |s| && IsSpace(s[p]) && s[p + 1] == '(' && DurationAt(s, p + 2)
  }

  /** `\s+\*?` covers `[a, b)`: whitespace, optionally followed by the current-track marker `*`. */
  predicate LeadInAt(s: string, a: nat, b: nat) {
    a < b <= |s| && if s[b - 1] == '*' then a < b - 1 && SpacesAt(s, a, b - 1) else SpacesAt(s, a, b)
  }

  /** `\s+-\s+` covers `[a, b)`: the separator between index and title. */
  ghost predicate SeparatorAt(s: string, a: nat, b: nat) {
    exists d: nat :: a < d && d + 1 < b && SpacesAt(s, a, d) && SpacesAt(s, d + 1, b) && s[d] == '-'
  }

  /** `-?\d+` covers `[a, b)`: a subtitle index. */
  predicate SignedDigitsAt(s: string, a: nat, b: nat) {
    a < b <= |s| && if s[a] == '-' then a + 1 < b && DigitsAt(s, a + 1, b) else DigitsAt(s, a, b)
  }

  // ---------------------------------------------------------------------------------------
  // Track rows: \|\s+\*?(?P<index>\d+)\s+-\s+(?P<title>.+)\s\((?P<length>\d\d:\d\d:\d\d).*

  /** Where one match of the track grammar lies: it starts at `start`, the index group is
      `[indexStart, indexEnd)`, the title group `[titleStart, titleEnd)`, and the length group
      is the 8 characters from `titleEnd + 2`. */
  datatype TrackMatch = TrackMatch(start: nat, indexStart: nat, indexEnd: nat, titleStart: nat, titleEnd: nat)

  /** The track grammar matches `s` at `m.start` with the groups `m` describes. */
  ghost predicate IsTrackRowAt(s: string, m: TrackMatch) {
    && m.start < m.indexStart < m.indexEnd < m.titleStart < m.titleEnd
    && LeadInAt(s, m.start + 1, m.indexStart)
    && DigitsAt(s, m.indexStart, m.indexEnd)
    && SeparatorAt(s, m.indexEnd, m.titleStart)
    && NoNewlineAt(s, m.titleStart, m.titleEnd)
    && LengthAt(s, m.titleEnd)
    && s[m.start] == '|'
  }

  /** The last position `q` in `(t0, p]` where a length follows: how far the greedy `.+` of a
      title that starts at `t0` reaches, trying the longest title first. */
  function LastLengthAt(s: string, t0: nat, p: nat): (r: Option<nat>)
    requires p <= |s|
    ensures r.Some? ==> t0 < r.value <= p && LengthAt(s, r.value)
    ensures r.Some? ==> forall q :: r.value < q <= p ==> !LengthAt(s, q)
    ensures r.None? ==> forall q :: t0 < q <= p ==> !LengthAt(s, q)
    decreases p
  {
    if p <= t0 then None
    else if LengthAt(s, p) then Some(p)
    else LastLengthAt(s, t0, p - 1)
  }

  /** The end of the longest title starting at `t0` that stays on one line and is followed by a length. */
  function TitleEnd(s: string, t0: nat): Option<nat>
    requires t0 <= |s|
  {
    LastLengthAt(s, t0, LineEnd(s, t0))
  }

  /** The title start and end the matcher settles on when the whitespace before the title ends
      at `t0` at the latest and starts after `lo`: `\s+` first keeps all of it, then gives back
      one character at a time, and the first start for which a title fits wins. */
  function TrackTitle(s: string, lo: nat, t0: nat): (r: Option<(nat, nat)>)
    requires lo < t0 <= |s|
    ensures r.Some? ==> lo < r.value.0 <= t0 && TitleEnd(s, r.value.0) == Some(r.value.1)
    ensures r.Some? ==> forall t :: r.value.0 < t <= t0 ==> TitleEnd(s, t).None?
    ensures r.None? ==> forall t :: lo < t <= t0 ==> TitleEnd(s, t).None?
    decreases t0
  {
    match TitleEnd(s, t0)
    case Some(p) => Some((t0, p))
    case None => if t0 - 1 > lo then TrackTitle(s, lo, t0 - 1) else None
  }

  /** `\|\s+\*?(\d+)\s+-` anchored at `i`: the index group `[indexStart, indexEnd)` and the
      position just past the dash. Each repetition here is followed by a character it cannot
      consume, so its longest extent is the only one that can succeed. */
  function TrackHead(s: string, i: nat): (r: Option<(nat, nat, nat)>)
    requires i <= |s|
    ensures r.Some? ==> i < r.value.0 < r.value.1 && r.value.1 + 1 < r.value.2 <= |s|
    ensures r.Some? ==> s[i] == '|' && LeadInAt(s, i + 1, r.value.0) && DigitsAt(s, r.value.0, r.value.1)
    ensures r.Some? ==> s[r.value.2 - 1] == '-' && SpacesAt(s, r.value.1, r.value.2 - 1)
  {
    if i == |s| || s[i] != '|' then None
    else
      var lead := SpaceEnd(s, i + 1);
      var indexStart := if lead < |s| && s[lead] == '*' then lead + 1 else lead;
      var indexEnd := DigitEnd(s, indexStart);
      var dash := SpaceEnd(s, indexEnd);
      if lead == i + 1 || indexEnd == indexStart || dash == indexEnd || dash == |s| || s[dash] != '-' then None
      else Some((indexStart, indexEnd, dash + 1))
  }

  /** Whenever the head of the track grammar can be matched at `i`, `TrackHead` finds it. */
  lemma TrackHeadComplete(s: string, i: nat, indexStart: nat, indexEnd: nat, dash: nat)
    requires i < indexStart < indexEnd < dash < |s|
    requires s[i] == '|' && LeadInAt(s, i + 1, indexStart) && DigitsAt(s, indexStart, indexEnd)
    requires SpacesAt(s, indexEnd, dash) && s[dash] == '-'
    ensures TrackHead(s, i) == Some((indexStart, indexEnd, dash + 1))
  {
    if s[indexStart - 1] == '*' {
      SpaceEndAt(s, i + 1, indexStart - 1);
    } else {
      SpaceEndAt(s, i + 1, indexStart);
    }
    DigitEndAt(s, indexStart, indexEnd);
    SpaceEndAt(s, indexEnd, dash);
  }

  /** The track grammar anchored at position `i`, with the backtracking matcher's choices. */
  function TrackAt(s: string, i: nat): (r: Option<TrackMatch>)
    requires i <= |s|
    ensures r.Some? ==> r.value.start == i && IsTrackRowAt(s, r.value)
  {
    match TrackHead(s, i)
    case None => None
    case Some((indexStart, indexEnd, gapStart)) =>
      var gapEnd := SpaceEnd(s, gapStart);
      if gapEnd == gapStart then None
      else
        match TrackTitle(s, gapStart, gapEnd)
        case None => None
        case Some((t0, p)) =>
          assert SpacesAt(s, gapStart, t0) && SpacesAt(s, indexEnd, gapStart - 1);
          Some(TrackMatch(i, indexStart, indexEnd, t0, p))
  }

  /** The leftmost match in `s`: an unanchored regex search tries every start in turn. */
  function TrackSearch(s: string): (r: Option<TrackMatch>)
    ensures r.Some? ==> r.value.start <= |s| && TrackAt(s, r.value.start) == r
    ensures r.Some? ==> forall k :: 0 <= k < r.value.start ==> TrackAt(s, k).None?
    ensures r.None? ==> forall k :: 0 <= k <= |s| ==> TrackAt(s, k).None?
  {
    var attempts := seq(|s| + 1, k requires 0 <= k <= |s| => TrackAt(s, k));
    assert forall k :: 0 <= k <= |s| ==> attempts[k] == TrackAt(s, k);
    match FirstSome(attempts)
    case None => None
    case Some((k, m)) =>
      assert attempts[k] == TrackAt(s, k);
      Some(m)
  }

  /** The groups of a track match have the forms the record's fields need. */
  lemma TrackGroups(s: string, m: TrackMatch)
    requires IsTrackRowAt(s, m)
    ensures AllDigits(s[m.indexStart..m.indexEnd]) && |s[m.indexStart..m.indexEnd]| > 0
    ensures IsDuration(s[m.titleEnd + 2..m.titleEnd + 10])
    ensures |s[m.titleStart..m.titleEnd]| > 0 && NoNewline(s[m.titleStart..m.titleEnd])
  {
    var length := s[m.titleEnd + 2..m.titleEnd + 10];
    assert forall k :: 0 <= k < 8 ==> length[k] == s[m.titleEnd + 2 + k];
  }

  /** `Track::from_parts`: the first match of the track grammar in `line`, with its index
      parsed as an `i32`; no match, or an index that overflows, gives None. */
  function TrackFromParts(line: string): (r: Option<Track>)
    ensures r.Some? ==> IsDuration(r.value.length)
    ensures r.Some? ==> r.value.index >= 0 && |r.value.title| > 0 && NoNewline(r.value.title)
  {
    match TrackSearch(line)
    case None => None
    case Some(m) =>
      TrackGroups(line, m);
      match ParseI32(line[m.indexStart..m.indexEnd])
      case None => None
      case Some(n) => Some(Track(n, line[m.titleStart..m.titleEnd], line[m.titleEnd + 2..m.titleEnd + 10]))
  }

  /** A declared match of the track grammar is found by the anchored matcher at its start,
      with the same index group; the matcher's title starts no earlier (the greedy `\s+`
      before it) and reaches at least as far (the greedy `.+`). */
  lemma TrackAtComplete(s: string, m: TrackMatch)
    requires IsTrackRowAt(s, m)
    ensures TrackAt(s, m.start).Some?
    ensures TrackAt(s, m.start).value.indexStart == m.indexStart && TrackAt(s, m.start).value.indexEnd == m.indexEnd
    ensures TrackAt(s, m.start).value.titleStart >= m.titleStart
    ensures TrackAt(s, m.start).value.titleEnd >= m.titleEnd
  {
    var d: nat :| m.indexEnd < d && d + 1 < m.titleStart && SpacesAt(s, m.indexEnd, d) && SpacesAt(s, d + 1, m.titleStart) && s[d] == '-';
    TrackHeadComplete(s, m.start, m.indexStart, m.indexEnd, d);
    var gapEnd := SpaceEnd(s, d + 1);
    SpaceEndCovers(s, d + 1, m.titleStart);
    TrackTitleReaches(s, d + 1, gapEnd, m.titleStart, m.titleEnd);
    TrackAtFound(s, m.start, m.indexStart, m.indexEnd, d + 1);
  }

  /** Once the head is matched and a title is found, the anchored matcher's result is fixed. */
  lemma TrackAtFound(s: string, i: nat, indexStart: nat, indexEnd: nat, gapStart: nat)
    requires i <= |s| && gapStart <= |s|
    requires TrackHead(s, i) == Some((indexStart, indexEnd, gapStart))
    requires SpaceEnd(s, gapStart) > gapStart
    requires TrackTitle(s, gapStart, SpaceEnd(s, gapStart)).Some?
    ensures var (t0, p) := TrackTitle(s, gapStart, SpaceEnd(s, gapStart)).value;
      TrackAt(s, i) == Some(TrackMatch(i, indexStart, indexEnd, t0, p))
  {
  }

  /** When a title `[t, q)` fits with `t` among the starts `TrackTitle` tries, the matcher
      finds a title that ends at `q` or later. */
  lemma TrackTitleReaches(s: string, lo: nat, t0: nat, t: nat, q: nat)
    requires lo < t <= t0 <= |s| && t < q
    requires NoNewlineAt(s, t, q) && LengthAt(s, q)
    ensures TrackTitle(s, lo, t0).Some? && TrackTitle(s, lo, t0).value.1 >= q
    ensures TrackTitle(s, lo, t0).value.0 >= t
  {
    assert q <= LineEnd(s, t);
    assert TitleEnd(s, t).Some?;
    var (t1, p) := TrackTitle(s, lo, t0).value;
    assert t <= t1;
    if t1 < q {
      assert q <= LineEnd(s, t1);
    }
  }

  /** The track search finds a match exactly when the grammar occurs somewhere in the line;
      the match it finds is the leftmost occurrence, and among the occurrences starting
      there it has the same index, the title that starts last (the greedy `\s+` before the
      title) and the title that ends last (the greedy `.+`). */
  lemma TrackSearchCorrect(s: string)
    ensures (exists m :: IsTrackRowAt(s, m)) ==> TrackSearch(s).Some?
    ensures TrackSearch(s).Some? ==> IsTrackRowAt(s, TrackSearch(s).value)
    ensures TrackSearch(s).Some? ==>
      forall m :: IsTrackRowAt(s, m) ==>
        var found := TrackSearch(s).value;
        && found.start <= m.start
        && (found.start == m.start ==> m.indexStart == found.indexStart && m.indexEnd == found.indexEnd)
        && (found.start == m.start ==> m.titleStart <= found.titleStart && m.titleEnd <= found.titleEnd)
  {
    forall m | IsTrackRowAt(s, m)
      ensures TrackSearch(s).Some?
      ensures TrackSearch(s).value.start <= m.start
      ensures TrackSearch(s).value.start == m.start ==>
        && m.indexStart == TrackSearch(s).value.indexStart && m.indexEnd == TrackSearch(s).value.indexEnd
        && m.titleStart <= TrackSearch(s).value.titleStart && m.titleEnd <= TrackSearch(s).value.titleEnd
    {
      TrackAtComplete(s, m);
    }
  }

  // ---------------------------------------------------------------------------------------
  // Subtitle rows: \|\s+(?P<index>-?\d+)\s+-\s+(?P<title>.+)

  /** Where one match of the subtitle grammar lies: the index group (sign included) is
      `[indexStart, indexEnd)` and the title group `[titleStart, titleEnd)`. */
  datatype SubtitleMatch = SubtitleMatch(start: nat, indexStart: nat, indexEnd: nat, titleStart: nat, titleEnd: nat)

  /** The subtitle grammar matches `s` at `m.start` with the groups `m` describes. */
  ghost predicate IsSubtitleRowAt(s: string, m: SubtitleMatch) {
    && m.start < m.indexStart < m.indexEnd < m.titleStart < m.titleEnd
    && m.start + 1 < m.indexStart && SpacesAt(s, m.start + 1, m.indexStart)
    && SignedDigitsAt(s, m.indexStart, m.indexEnd)
    && SeparatorAt(s, m.indexEnd, m.titleStart)
    && NoNewlineAt(s, m.titleStart, m.titleEnd)
    && s[m.start] == '|'
  }

  /** `\|\s+(-?\d+)\s+-` anchored at `i`: the index group and the position just past the dash. */
  function SubtitleHead(s: string, i: nat): (r: Option<(nat, nat, nat)>)
    requires i <= |s|
    ensures r.Some? ==> i + 1 < r.value.0 < r.value.1 && r.value.1 + 1 < r.value.2 <= |s|
    ensures r.Some? ==> s[i] == '|' && SpacesAt(s, i + 1, r.value.0) && SignedDigitsAt(s, r.value.0, r.value.1)
    ensures r.Some? ==> s[r.value.2 - 1] == '-' && SpacesAt(s, r.value.1, r.value.2 - 1)
  {
    if i == |s| || s[i] != '|' then None
    else
      var indexStart := SpaceEnd(s, i + 1);
      var digitStart := if indexStart < |s| && s[indexStart] == '-' then indexStart + 1 else indexStart;
      var indexEnd := DigitEnd(s, digitStart);
      var dash := SpaceEnd(s, indexEnd);
      if indexStart == i + 1 || indexEnd == digitStart || dash == indexEnd || dash == |s| || s[dash] != '-' then None
      else Some((indexStart, indexEnd, dash + 1))
  }

  /** Whenever the head of the subtitle grammar can be matched at `i`, `SubtitleHead` finds it. */
  lemma SubtitleHeadComplete(s: string, i: nat, indexStart: nat, indexEnd: nat, dash: nat)
    requires i + 1 < indexStart < indexEnd < dash < |s|
    requires s[i] == '|' && SpacesAt(s, i + 1, indexStart) && SignedDigitsAt(s, indexStart, indexEnd)
    requires SpacesAt(s, indexEnd, dash) && s[dash] == '-'
    ensures SubtitleHead(s, i) == Some((indexStart, indexEnd, dash + 1))
  {
    SpaceEndAt(s, i + 1, indexStart);
    DigitEndAt(s, if s[indexStart] == '-' then indexStart + 1 else indexStart, indexEnd);
    SpaceEndAt(s, indexEnd, dash);
  }

  /** The title start the matcher settles on when the whitespace before the title ends at
      `t0` at the latest and starts after `lo`: the latest start at which `.+` can take a
      character. */
  function SubtitleTitleStart(s: string, lo: nat, t0: nat): (r: Option<nat>)
    requires lo < t0 <= |s|
    ensures r.Some? ==> lo < r.value <= t0 && r.value < |s| && s[r.value] != '\n'
    ensures r.Some? ==> forall t :: r.value < t <= t0 ==> t == |s| || s[t] == '\n'
    ensures r.None? ==> forall t :: lo < t <= t0 ==> t == |s| || s[t] == '\n'
    decreases t0
  {
    if t0 < |s| && s[t0] != '\n' then Some(t0)
    else if t0 - 1 > lo then SubtitleTitleStart(s, lo, t0 - 1)
    else None
  }

  /** The subtitle grammar anchored at position `i`; the title runs to the end of its line. */
  function SubtitleAt(s: string, i: nat): (r: Option<SubtitleMatch>)
    requires i <= |s|
    ensures r.Some? ==> r.value.start == i && IsSubtitleRowAt(s, r.value)
    ensures r.Some? ==> r.value.titleEnd == LineEnd(s, r.value.titleStart)
  {
    match SubtitleHead(s, i)
    case None => None
    case Some((indexStart, indexEnd, gapStart)) =>
      var gapEnd := SpaceEnd(s, gapStart);
      if gapEnd == gapStart then None
      else
        match SubtitleTitleStart(s, gapStart, gapEnd)
        case None => None
        case Some(t0) =>
          assert SpacesAt(s, gapStart, t0) && SpacesAt(s, indexEnd, gapStart - 1);
          Some(SubtitleMatch(i, indexStart, indexEnd, t0, LineEnd(s, t0)))
  }

  /** The leftmost subtitle match in `s`. */
  function SubtitleSearch(s: string): (r: Option<SubtitleMatch>)
    ensures r.Some? ==> r.value.start <= |s| && SubtitleAt(s, r.value.start) == r
    ensures r.Some? ==> forall k :: 0 <= k < r.value.start ==> SubtitleAt(s, k).None?
    ensures r.None? ==> forall k :: 0 <= k <= |s| ==> SubtitleAt(s, k).None?
  {
    var attempts := seq(|s| + 1, k requires 0 <= k <= |s| => SubtitleAt(s, k));
    assert forall k :: 0 <= k <= |s| ==> attempts[k] == SubtitleAt(s, k);
    match FirstSome(attempts)
    case None => None
    case Some((k, m)) =>
      assert attempts[k] == SubtitleAt(s, k);
      Some(m)
  }

  /** `Subtitle::from_parts`: the first match of the subtitle grammar in `line`, with its
      signed index parsed as an `i32`; no match, or an index outside `i32`, gives None. */
  function SubtitleFromParts(line: string): (r: Option<Subtitle>)
    ensures r.Some? ==> |r.value.title| > 0 && NoNewline(r.value.title)
  {
    match SubtitleSearch(line)
    case None => None
    case Some(m) =>
      match ParseI32(line[m.indexStart..m.indexEnd])
      case None => None
      case Some(n) => Some(Subtitle(n, line[m.titleStart..m.titleEnd]))
  }

  /** A declared match of the subtitle grammar is found by the anchored matcher at its start,
      with the same index group and a title that starts no earlier and reaches at least as
      far. */
  lemma SubtitleAtComplete(s: string, m: SubtitleMatch)
    requires IsSubtitleRowAt(s, m)
    ensures SubtitleAt(s, m.start).Some?
    ensures SubtitleAt(s, m.start).value.indexStart == m.indexStart && SubtitleAt(s, m.start).value.indexEnd == m.indexEnd
    ensures SubtitleAt(s, m.start).value.titleStart >= m.titleStart
    ensures SubtitleAt(s, m.start).value.titleEnd >= m.titleEnd
  {
    var d := SeparatorDash(s, m.indexEnd, m.titleStart);
    SubtitleHeadComplete(s, m.start, m.indexStart, m.indexEnd, d);
    var gapEnd := SpaceEnd(s, d + 1);
    SpaceEndCovers(s, d + 1, m.titleStart);
    SubtitleTitleReaches(s, d + 1, gapEnd, m.titleStart, m.titleEnd);
    SubtitleAtFound(s, m.start, m.indexStart, m.indexEnd, d + 1);
  }

  /** Where the dash of a separator lies. */
  lemma SeparatorDash(s: string, a: nat, b: nat) returns (d: nat)
    requires SeparatorAt(s, a, b)
    ensures a < d && d + 1 < b && SpacesAt(s, a, d) && SpacesAt(s, d + 1, b) && s[d] == '-'
  {
    d :| a < d && d + 1 < b && SpacesAt(s, a, d) && SpacesAt(s, d + 1, b) && s[d] == '-';
  }

  /** Once the head is matched and a title start is found, the anchored matcher's result is
      fixed: the title runs from that start to the end of its line. */
  lemma SubtitleAtFound(s: string, i: nat, indexStart: nat, indexEnd: nat, gapStart: nat)
    requires i <= |s| && gapStart <= |s|
    requires SubtitleHead(s, i) == Some((indexStart, indexEnd, gapStart))
    requires SpaceEnd(s, gapStart) > gapStart
    requires SubtitleTitleStart(s, gapStart, SpaceEnd(s, gapStart)).Some?
    ensures var t0 := SubtitleTitleStart(s, gapStart, SpaceEnd(s, gapStart)).value;
      SubtitleAt(s, i) == Some(SubtitleMatch(i, indexStart, indexEnd, t0, LineEnd(s, t0)))
  {
  }

  /** When a title `[t, q)` fits with `t` among the starts `SubtitleTitleStart` tries, the
      matcher finds a title that reaches `q` or further. */
  lemma SubtitleTitleReaches(s: string, lo: nat, t0: nat, t: nat, q: nat)
    requires lo < t <= t0 <= |s| && t < q && NoNewlineAt(s, t, q)
    ensures SubtitleTitleStart(s, lo, t0).Some?
    ensures LineEnd(s, SubtitleTitleStart(s, lo, t0).value) >= q
    ensures SubtitleTitleStart(s, lo, t0).value >= t
  {
    assert s[t] != '\n';
    var t1 := SubtitleTitleStart(s, lo, t0).value;
    if t1 < q {
      LineEndCovers(s, t1, q);
    }
  }

  /** The line containing `i` reaches past every newline-free stretch from `i`. */
  lemma LineEndCovers(s: string, i: nat, j: nat)
    requires i <= j && NoNewlineAt(s, i, j)
    ensures j <= LineEnd(s, i)
  {
  }

  /** The subtitle search finds a match exactly when the grammar occurs somewhere in the line;
      the match it finds is the leftmost occurrence, its title runs to the end of the line,
      and among the occurrences starting there it has the same index and the title that
      starts last and ends last. */
  lemma SubtitleSearchCorrect(s: string)
    ensures (exists m :: IsSubtitleRowAt(s, m)) ==> SubtitleSearch(s).Some?
    ensures SubtitleSearch(s).Some? ==>
      var found := SubtitleSearch(s).value;
      IsSubtitleRowAt(s, found) && found.titleEnd == LineEnd(s, found.titleStart)
    ensures SubtitleSearch(s).Some? ==>
      forall m :: IsSubtitleRowAt(s, m) ==>
        var found := SubtitleSearch(s).value;
        && found.start <= m.start
        && (found.start == m.start ==> m.indexStart == found.indexStart && m.indexEnd == found.indexEnd)
        && (found.start == m.start ==> m.titleStart <= found.titleStart && m.titleEnd <= found.titleEnd)
  {
    forall m | IsSubtitleRowAt(s, m) {
      SubtitleSearchLeftmost(s, m);
    }
  }

  /** The subtitle search, given one occurrence `m` of the grammar, finds a match no later
      than `m`, and at the same start one with `m`'s index and a title covering `m`'s. */
  lemma SubtitleSearchLeftmost(s: string, m: SubtitleMatch)
    requires IsSubtitleRowAt(s, m)
    ensures SubtitleSearch(s).Some? && SubtitleSearch(s).value.start <= m.start
    ensures SubtitleSearch(s).value.start == m.start ==>
      var found := SubtitleSearch(s).value;
      && m.indexStart == found.indexStart && m.indexEnd == found.indexEnd
      && m.titleStart <= found.titleStart && m.titleEnd <= found.titleEnd
  {
    SubtitleAtComplete(s, m);
  }

  /** A line in which the subtitle grammar occurs, whose leftmost occurrence has a signed
      index outside the `i32` range, yields no subtitle: below -2147483648 or above
      2147483647, the index does not parse as an `i32`. */
  lemma SubtitleIndexOverflow(s: string, m: SubtitleMatch)
    requires IsSubtitleRowAt(s, m)
    requires forall n :: IsSubtitleRowAt(s, n) ==> m.start <= n.start
    requires if s[m.indexStart] == '-' then DecimalValue(s[m.indexStart + 1..m.indexEnd]) > I32_MAX + 1
             else DecimalValue(s[m.indexStart..m.indexEnd]) > I32_MAX
    ensures SubtitleFromParts(s) == None
  {
    SubtitleSearchGroups(s, m);
    SubtitleIndexOutOfRange(s, m);
  }

  /** When `m` is the leftmost occurrence of the subtitle grammar, the search finds a match
      with `m`'s index group. */
  lemma SubtitleSearchGroups(s: string, m: SubtitleMatch)
    requires IsSubtitleRowAt(s, m)
    requires forall n :: IsSubtitleRowAt(s, n) ==> m.start <= n.start
    ensures SubtitleSearch(s).Some?
    ensures SubtitleSearch(s).value.indexStart == m.indexStart && SubtitleSearch(s).value.indexEnd == m.indexEnd
  {
    SubtitleSearchLeftmost(s, m);
    var found := SubtitleSearch(s).value;
    assert IsSubtitleRowAt(s, found);
  }

  /** A signed index group whose value lies outside the `i32` range does not parse. */
  lemma SubtitleIndexOutOfRange(s: string, m: SubtitleMatch)
    requires IsSubtitleRowAt(s, m)
    requires if s[m.indexStart] == '-' then DecimalValue(s[m.indexStart + 1..m.indexEnd]) > I32_MAX + 1
             else DecimalValue(s[m.indexStart..m.indexEnd]) > I32_MAX
    ensures ParseI32(s[m.indexStart..m.indexEnd]) == None
  {
    var idx := s[m.indexStart..m.indexEnd];
    if s[m.indexStart] == '-' {
      assert idx[1..] == s[m.indexStart + 1..m.indexEnd];
    }
    ParseI32Overflow(idx);
  }

  /** A line without the list-item delimiter `|` is neither a track row nor a subtitle row. */
  lemma NoDelimiterNoRecord(line: string)
    requires '|' !in line
    ensures TrackFromParts(line) == None
    ensures SubtitleFromParts(line) == None
  {
  }

  /** How a playlist row starts: the current track is marked with `*`. */
  function RowPrefix(current: bool): (p: string)
    ensures |p| == (if current then 3 else 2) && p[0] == '|' && p[1] == ' ' && (current ==> p[2] == '*')
  {
    if current then "| *" else "| "
  }

  /** A line laid out as `|`, a lead-in, digits, ` - `, a one-line title not starting with
      whitespace and a final ` (HH:MM:SS)` is matched from its first character, with exactly
      those groups. */
  lemma TrackLayoutMatch(s: string, a: nat, b: nat, te: nat)
    requires a < b && b + 3 < te && |s| == te + 11
    requires s[0] == '|' && LeadInAt(s, 1, a) && DigitsAt(s, a, b)
    requires s[b] == ' ' && s[b + 1] == '-' && s[b + 2] == ' ' && !IsSpace(s[b + 3])
    requires NoNewlineAt(s, b + 3, |s|) && LengthAt(s, te)
    ensures TrackSearch(s) == Some(TrackMatch(0, a, b, b + 3, te))
  {
    TrackHeadComplete(s, 0, a, b, b + 1);
    SpaceEndAt(s, b + 2, b + 3);
    TitleEndAtLast(s, b + 3, te);
    assert TrackTitle(s, b + 2, b + 3) == Some((b + 3, te));
    assert TrackAt(s, 0) == Some(TrackMatch(0, a, b, b + 3, te));
    TrackSearchFirst(s);
  }

  /** A title that runs to a length closing the line ends at that length. */
  lemma TitleEndAtLast(s: string, t0: nat, te: nat)
    requires t0 < te && |s| == te + 11
    requires NoNewlineAt(s, t0, |s|) && LengthAt(s, te)
    ensures TitleEnd(s, t0) == Some(te)
  {
    LineEndAt(s, t0, |s|);
    assert forall q :: te < q <= |s| ==> !LengthAt(s, q);
    LastLengthAtIs(s, t0, |s|, te);
  }

  /** The last length in `(t0, p]` is at `q` when there is one at `q` and none after it. */
  lemma {:induction false} LastLengthAtIs(s: string, t0: nat, p: nat, q: nat)
    requires t0 < q <= p <= |s| && LengthAt(s, q)
    requires forall r :: q < r <= p ==> !LengthAt(s, r)
    ensures LastLengthAt(s, t0, p) == Some(q)
    decreases p
  {
    if p > q {
      LastLengthAtIs(s, t0, p - 1, q);
    }
  }

  /** A match at the very first position is the leftmost one. */
  lemma TrackSearchFirst(s: string)
    requires TrackAt(s, 0).Some?
    ensures TrackSearch(s) == TrackAt(s, 0)
  {
  }

  /** The characters of the playlist row `s` that shows track `t`, position by position: the
      index runs over `[a, b)` and the title ends at `te`. */
  lemma TrackRowLayout(t: Track, current: bool, s: string, a: nat, b: nat, te: nat)
    requires |t.length| == 8 && s == RowPrefix(current) + TrackText(t)
    requires a == (if current then 3 else 2) && b == a + |IntToString(t.index)| && te == b + 3 + |t.title|
    ensures |s| == te + 11
    ensures s[0] == '|' && s[1] == ' ' && (current ==> s[2] == '*')
    ensures s[a..b] == IntToString(t.index)
    ensures s[b] == ' ' && s[b + 1] == '-' && s[b + 2] == ' '
    ensures s[b + 3..te] == t.title
    ensures s[te] == ' ' && s[te + 1] == '(' && s[te + 2..te + 10] == t.length && s[te + 10] == ')'
  {
    var x := TrackText(t);
    var n := b - a;
    TrackTextLayout(t, x, n);
    var p := RowPrefix(current);
    assert s == p + x && |p| == a;
    ShiftSlice(p, x, 0, n);
    ShiftSlice(p, x, n + 3, te - a);
    ShiftSlice(p, x, te - a + 2, te - a + 10);
  }

  /** A stretch of the second part of a concatenation, seen from the whole. */
  lemma ShiftSlice(p: string, x: string, i: nat, j: nat)
    requires i <= j <= |x|
    ensures (p + x)[|p| + i..|p| + j] == x[i..j]
  {
  }

  /** The characters of `Display` for track `t`: the index takes the first `n` characters. */
  lemma TrackTextLayout(t: Track, x: string, n: nat)
    requires |t.length| == 8 && x == TrackText(t) && n == |IntToString(t.index)|
    ensures |x| == n + 3 + |t.title| + 11
    ensures x[..n] == IntToString(t.index)
    ensures x[n] == ' ' && x[n + 1] == '-' && x[n + 2] == ' '
    ensures x[n + 3..n + 3 + |t.title|] == t.title
    ensures var e := n + 3 + |t.title|;
      x[e] == ' ' && x[e + 1] == '(' && x[e + 2..e + 10] == t.length && x[e + 10] == ')'
  {
    var idx := IntToString(t.index);
    var p2 := idx + " - ";
    var p3 := p2 + t.title;
    var p5 := p3 + " (" + t.length;
    assert x == p5 + ")";
    assert p3[..n + 3] == p2 && p3[n + 3..] == t.title;
    assert p5[..n + 3 + |t.title|] == p3 && p5[n + 5 + |t.title|..] == t.length;
  }

  /** The layout of a playlist row, given piece by piece, meets the conditions of `TrackLayoutMatch`. */
  lemma RowPartsMatch(s: string, current: bool, idx: string, title: string, length: string, a: nat, b: nat, te: nat)
    requires IsDuration(length) && |title| > 0 && NoNewline(title) && !IsSpace(title[0])
    requires |idx| > 0 && AllDigits(idx)
    requires a == (if current then 3 else 2) && b == a + |idx| && te == b + 3 + |title| && |s| == te + 11
    requires s[0] == '|' && s[1] == ' ' && (current ==> s[2] == '*')
    requires s[a..b] == idx
    requires s[b] == ' ' && s[b + 1] == '-' && s[b + 2] == ' '
    requires s[b + 3..te] == title
    requires s[te] == ' ' && s[te + 1] == '(' && s[te + 2..te + 10] == length && s[te + 10] == ')'
    ensures TrackSearch(s) == Some(TrackMatch(0, a, b, b + 3, te))
  {
    assert DigitsAt(s, a, b) by {
      forall k | a <= k < b ensures IsDigit(s[k]) {
        assert s[k] == s[a..b][k - a];
      }
    }
    assert !IsSpace(s[b + 3]) by {
      assert s[b + 3] == s[b + 3..te][0];
    }
    assert NoNewlineAt(s, b + 3, |s|) by {
      forall k | b + 3 <= k < |s| ensures s[k] != '\n' {
        if k < te {
          assert s[k] == s[b + 3..te][k - b - 3];
        } else if te + 2 <= k < te + 10 {
          assert s[k] == s[te + 2..te + 10][k - te - 2];
        }
      }
    }
    assert LengthAt(s, te) by {
      forall k | 0 <= k < 8 ensures s[te + 2 + k] == length[k] {
        assert s[te + 2 + k] == s[te + 2..te + 10][k];
      }
    }
    TrackLayoutMatch(s, a, b, te);
  }

  /** A line laid out as a playlist row showing track `t` parses back to `t`. */
  lemma TrackRowParsed(t: Track, current: bool, s: string, a: nat, b: nat, te: nat)
    requires t.index >= 0 && IsDuration(t.length)
    requires |t.title| > 0 && NoNewline(t.title) && !IsSpace(t.title[0])
    requires a == (if current then 3 else 2) && b == a + |IntToString(t.index)| && te == b + 3 + |t.title| && |s| == te + 11
    requires s[0] == '|' && s[1] == ' ' && (current ==> s[2] == '*')
    requires s[a..b] == IntToString(t.index)
    requires s[b] == ' ' && s[b + 1] == '-' && s[b + 2] == ' '
    requires s[b + 3..te] == t.title
    requires s[te] == ' ' && s[te + 1] == '(' && s[te + 2..te + 10] == t.length && s[te + 10] == ')'
    ensures TrackFromParts(s) == Some(t)
  {
    RowPartsMatch(s, current, IntToString(t.index), t.title, t.length, a, b, te);
    ParseI32OfIntToString(t.index);
  }

  /** Printing a track as a playlist row (marked as current or not) and parsing the row gives
      the track back, whenever the title does not start with whitespace (the whitespace before
      the title absorbs it) and stays on one line. */
  lemma TrackRowRoundTrip(t: Track, current: bool)
    requires t.index >= 0 && IsDuration(t.length)
    requires |t.title| > 0 && NoNewline(t.title) && !IsSpace(t.title[0])
    ensures TrackFromParts(RowPrefix(current) + TrackText(t)) == Some(t)
  {
    var s := RowPrefix(current) + TrackText(t);
    var a := (if current then 3 else 2);
    var b := a + |IntToString(t.index)|;
    var te := b + 3 + |t.title|;
    TrackRowLayout(t, current, s, a, b, te);
    TrackRowParsed(t, current, s, a, b, te);
  }

  /** A line in which the track grammar occurs, whose leftmost occurrence has an index
      beyond the `i32` range, yields no track: the index does not parse as an `i32`. */
  lemma TrackIndexOverflow(s: string, m: TrackMatch)
    requires IsTrackRowAt(s, m)
    requires forall n :: IsTrackRowAt(s, n) ==> m.start <= n.start
    requires DecimalValue(s[m.indexStart..m.indexEnd]) > I32_MAX
    ensures TrackFromParts(s) == None
  {
    TrackSearchCorrect(s);
    TrackGroups(s, m);
  }

  /** A line with no `(` holds no track length, so it is not a track row (such as the
      playlist's own folder rows). */
  lemma NoLengthNoTrack(line: string)
    requires '(' !in line
    ensures TrackFromParts(line) == None
  {
  }

  /** The characters of the row `s` that shows subtitle track `t`: the index runs over `[2, b)`. */
  lemma SubtitleRowLayout(t: Subtitle, s: string, b: nat)
    requires s == "| " + SubtitleText(t) && b == 2 + |IntToString(t.index)|
    ensures |s| == b + 3 + |t.title|
    ensures s[0] == '|' && s[1] == ' ' && s[2..b] == IntToString(t.index)
    ensures s[b] == ' ' && s[b + 1] == '-' && s[b + 2] == ' ' && s[b + 3..] == t.title
  {
    var idx := IntToString(t.index);
    var p2 := idx + " - ";
    var x := p2 + t.title;
    assert x == SubtitleText(t);
    assert x[..b - 2] == idx && x[b - 2] == ' ' && x[b - 1] == '-' && x[b] == ' ' && x[b + 1..] == t.title;
    assert s[2..] == x;
  }

  /** A line laid out as `| `, a signed index over `[2, b)`, ` - ` and a one-line title not
      starting with whitespace is matched from its first character, with exactly those groups. */
  lemma SubtitleLayoutMatch(s: string, b: nat)
    requires 2 < b && b + 3 < |s|
    requires s[0] == '|' && s[1] == ' ' && SignedDigitsAt(s, 2, b)
    requires s[b] == ' ' && s[b + 1] == '-' && s[b + 2] == ' ' && !IsSpace(s[b + 3])
    requires NoNewlineAt(s, b + 3, |s|)
    ensures SubtitleSearch(s) == Some(SubtitleMatch(0, 2, b, b + 3, |s|))
  {
    SubtitleHeadComplete(s, 0, 2, b, b + 1);
    SpaceEndAt(s, b + 2, b + 3);
    LineEndAt(s, b + 3, |s|);
    assert SubtitleAt(s, 0) == Some(SubtitleMatch(0, 2, b, b + 3, |s|));
  }

  /** A line laid out as a row showing subtitle track `t` parses back to `t`. */
  lemma SubtitleRowParsed(t: Subtitle, s: string, b: nat)
    requires |t.title| > 0 && NoNewline(t.title) && !IsSpace(t.title[0])
    requires b == 2 + |IntToString(t.index)| && |s| == b + 3 + |t.title|
    requires s[0] == '|' && s[1] == ' ' && s[2..b] == IntToString(t.index)
    requires s[b] == ' ' && s[b + 1] == '-' && s[b + 2] == ' ' && s[b + 3..] == t.title
    ensures SubtitleFromParts(s) == Some(t)
  {
    SignedIndexAt(s, b, t.index);
    OneLineTitleAt(s, b + 3, t.title);
    SubtitleLayoutMatch(s, b);
    assert s[b + 3..|s|] == t.title;
    ParseI32OfIntToString(t.index);
  }

  /** The printed form of an index, placed at `[2, b)`, is a signed run of digits there. */
  lemma SignedIndexAt(s: string, b: nat, n: int)
    requires 2 <= b <= |s| && s[2..b] == IntToString(n)
    ensures SignedDigitsAt(s, 2, b)
  {
    var idx := IntToString(n);
    forall k | 2 <= k < b
      ensures s[k] == idx[k - 2]
    {
      assert s[k] == s[2..b][k - 2];
    }
    if n < 0 {
      assert idx == "-" + NatToString(-n);
    }
  }

  /** A title on one line that does not start with whitespace, placed at the end of `s` from
      `ts`, is what `.+` can cover there. */
  lemma OneLineTitleAt(s: string, ts: nat, title: string)
    requires ts <= |s| && s[ts..] == title && |title| > 0 && NoNewline(title) && !IsSpace(title[0])
    ensures ts < |s| && !IsSpace(s[ts]) && NoNewlineAt(s, ts, |s|)
  {
    forall k | ts <= k < |s|
      ensures s[k] == title[k - ts]
    {
      assert s[k] == s[ts..][k - ts];
    }
  }

  /** Printing a subtitle track as a row and parsing the row gives it back, under the same
      conditions on the title as for tracks. */
  lemma SubtitleRowRoundTrip(t: Subtitle)
    requires |t.title| > 0 && NoNewline(t.title) && !IsSpace(t.title[0])
    ensures SubtitleFromParts("| " + SubtitleText(t)) == Some(t)
  {
    var s := "| " + SubtitleText(t);
    var b := 2 + |IntToString(t.index)|;
    SubtitleRowLayout(t, s, b);
    SubtitleRowParsed(t, s, b);
  }

  // ---------------------------------------------------------------------------------------
  // The rows the player prints, as listed by the crate's own examples

  /** The row printed for a plain playlist entry (track 8, "Chopin Nocturnes.mp3",
      "01:50:55") reads back as that track. */
  lemma TrackRoundTripChopin(t: Track)
    requires t == Track(8, "Chopin Nocturnes.mp3", "01:50:55")
    ensures TrackFromParts(RowPrefix(false) + TrackText(t)) == Some(t)
  {
    TrackRowRoundTrip(t, false);
  }

  /** The row printed for the current track 1, "Bach (00:00:01).mp3", "01:50:55": a title that
      itself holds a parenthesised time is read whole, up to the last length on the line. */
  lemma TrackRoundTripBach(t: Track)
    requires t == Track(1, "Bach (00:00:01).mp3", "01:50:55")
    ensures TrackFromParts(RowPrefix(true) + TrackText(t)) == Some(t)
  {
    TrackRowRoundTrip(t, true);
  }

  /** The frame rows around the playlist are not tracks. */
  lemma TrackExamplesFrame()
    ensures TrackFromParts("+----[ Playlist - playlist ]") == None
    ensures TrackFromParts("+----[ End of playlist ]") == None
  {
    NoDelimiterNoRecord("+----[ Playlist - playlist ]");
    NoDelimiterNoRecord("+----[ End of playlist ]");
  }

  /** The playlist's folder rows have no length and are not tracks. */
  lemma TrackExamplesFolders()
    ensures TrackFromParts("| 1 - Playlist") == None
    ensures TrackFromParts("| 2 - Media Library") == None
  {
    NoLengthNoTrack("| 1 - Playlist");
    NoLengthNoTrack("| 2 - Media Library");
  }

  /** The row printed for the "disable" entry of the subtitle listing (-1, "Disable *") reads
      back with its negative index. */
  lemma SubtitleRoundTripDisable(t: Subtitle)
    requires t == Subtitle(-1, "Disable *")
    ensures SubtitleFromParts("| " + SubtitleText(t)) == Some(t)
  {
    SubtitleRowRoundTrip(t);
  }

  /** The row printed for subtitle track 2, "Track 1 - [English]", whose title itself contains
      the separator ` - `: the title keeps it. */
  lemma SubtitleRoundTripEnglish(t: Subtitle)
    requires t == Subtitle(2, "Track 1 - [English]")
    ensures SubtitleFromParts("| " + SubtitleText(t)) == Some(t)
  {
    SubtitleRowRoundTrip(t);
  }

  /** The frame rows of a subtitle listing are not subtitle tracks. */
  lemma SubtitleExamplesNone()
    ensures SubtitleFromParts("+----[ spu-es ]") == None
    ensures SubtitleFromParts("+----[ end of spu-es ]") == None
  {
    NoDelimiterNoRecord("+----[ spu-es ]");
    NoDelimiterNoRecord("+----[ end of spu-es ]");
  }
}

=== FILE: numbers.dfy ===
/** Fixed-width integers, ASCII character classes, and the decimal text forms Rust gives them:
    `FromStr` for the `u16`, `u32` and `i32` parses the client performs and `Display` for the
    numbers it prints into commands and records. */
module Numbers {
  import opened Errors

  type u8 = x: int | 0 <= x < 0x100
  type u16 = x: int | 0 <= x < 0x1_0000
  type u32 = x: int | 0 <= x < 0x1_0000_0000
  type i32 = x: int | -0x8000_0000 <= x < 0x8000_0000

  const U16_MAX: nat := 0xFFFF
  const U32_MAX: nat := 0xFFFF_FFFF
  const I32_MAX: nat := 0x7FFF_FFFF

  /** An ASCII decimal digit. */
  predicate IsDigit(c: char) {
    '0' <= c <= '9'
  }

  /** ASCII whitespace: what both the regex class `\s` and `str::trim` remove among ASCII characters. */
  predicate IsSpace(c: char) {
    c == ' ' || '\t' <= c <= '\r'
  }

  predicate AllDigits(s: string) {
    forall k :: 0 <= k < |s| ==> IsDigit(s[k])
  }

  predicate AllSpace(s: string) {
    forall k :: 0 <= k < |s| ==> IsSpace(s[k])
  }

  function DigitValue(c: char): (d: nat)
    requires IsDigit(c)
    ensures d < 10
  {
    c as int - '0' as int
  }

  function DigitChar(d: nat): (c: char)
    requires d < 10
    ensures IsDigit(c) && DigitValue(c) == d
  {
    ('0' as int + d) as char
  }

  /** The value of a run of decimal digits, most significant first (leading zeros allowed). */
  function DecimalValue(s: string): nat
    requires AllDigits(s)
    decreases |s|
  {
    if s == [] then 0 else DecimalValue(s[..|s| - 1]) * 10 + DigitValue(s[|s| - 1])
  }

  /** `Display` of a non-negative integer: its shortest decimal form. */
  function NatToString(n: nat): (s: string)
    ensures |s| > 0 && AllDigits(s) && DecimalValue(s) == n
    ensures s[0] == '0' ==> s == "0"
    decreases n
  {
    if n < 10 then [DigitChar(n)]
    else
      var s := NatToString(n / 10) + [DigitChar(n % 10)];
      assert s[..|s| - 1] == NatToString(n / 10);
      s
  }

  /** `Display` of a signed integer: a `-` before the magnitude of a negative number. */
  function IntToString(n: int): string {
    if n < 0 then "-" + NatToString(-n) else NatToString(n)
  }

  /** `FromStr` for an unsigned type whose largest value is `max` (`u16`, `u32`): an optional
      `+`, then one or more ASCII digits whose value does not exceed `max`. */
  function ParseUnsigned(s: string, max: nat): (r: Option<nat>)
    ensures r.Some? ==> r.value <= max
  {
    var digits := if |s| > 0 && s[0] == '+' then s[1..] else s;
    if |digits| == 0 then None
    else
      match DigitsValue(digits)
      case Some(v) => if v <= max then Some(v) else None
      case None => None
  }

  /** The value of a run of ASCII digits read left to right, or nothing when one of the
      characters is not a digit. */
  function DigitsValue(s: string): Option<nat>
    decreases |s|
  {
    if s == [] then Some(0)
    else if !IsDigit(s[|s| - 1]) then None
    else
      match DigitsValue(s[..|s| - 1])
      case Some(v) => Some(v * 10 + DigitValue(s[|s| - 1]))
      case None => None
  }

  /** `DigitsValue` succeeds exactly on digit strings, with their decimal value. */
  lemma {:induction false} DigitsValueOf(s: string)
    ensures AllDigits(s) ==> DigitsValue(s) == Some(DecimalValue(s))
    ensures !AllDigits(s) ==> DigitsValue(s) == None
    decreases |s|
  {
    if s != [] {
      var init := s[..|s| - 1];
      DigitsValueOf(init);
      if IsDigit(s[|s| - 1]) && !AllDigits(s) {
        var k :| 0 <= k < |s| && !IsDigit(s[k]);
        assert init[k] == s[k];
      }
    }
  }

  /** A text parses exactly when, after one optional `+`, it is one or more digits whose decimal
      value fits, and then the result is that value. */
  lemma ParseUnsignedDecimal(s: string, max: nat)
    ensures var digits := if |s| > 0 && s[0] == '+' then s[1..] else s;
      ParseUnsigned(s, max)
      == if |digits| > 0 && AllDigits(digits) && DecimalValue(digits) <= max then Some(DecimalValue(digits)) else None
  {
    DigitsValueOf(if |s| > 0 && s[0] == '+' then s[1..] else s);
  }

  /** Plain decimal digits parse as their value when it fits, and fail to parse when it does not. */
  lemma ParseUnsignedDigits(s: string, max: nat)
    requires AllDigits(s)
    ensures |s| > 0 && DecimalValue(s) <= max ==> ParseUnsigned(s, max) == Some(DecimalValue(s))
    ensures DecimalValue(s) > max ==> ParseUnsigned(s, max) == None
  {
    ParseUnsignedDecimal(s, max);
    assert |s| > 0 ==> IsDigit(s[0]);
  }

  /** `FromStr` for `i32`: an optional `+` or `-`, then one or more ASCII digits, and the value
      must lie in the `i32` range (so `-2147483648` parses, `2147483648` does not). */
  function ParseI32(s: string): (r: Option<i32>)
    ensures AllDigits(s) && |s| > 0 ==> (r.Some? <==> DecimalValue(s) <= I32_MAX)
    ensures AllDigits(s) && r.Some? ==> r.value as int == DecimalValue(s)
    ensures r.Some? && |s| > 0 && s[0] == '-' ==> r.value <= 0
    ensures |s| > 1 && s[0] == '-' && AllDigits(s[1..]) ==>
      && (r.Some? <==> DecimalValue(s[1..]) <= I32_MAX + 1)
      && (r.Some? ==> r.value as int == -(DecimalValue(s[1..]) as int))
  {
    if |s| > 0 && s[0] == '-' then
      var m := s[1..];
      if |m| > 0 && AllDigits(m) && DecimalValue(m) <= I32_MAX + 1 then Some(-(DecimalValue(m) as int)) else None
    else
      var m := if |s| > 0 && s[0] == '+' then s[1..] else s;
      if |m| > 0 && AllDigits(m) && DecimalValue(m) <= I32_MAX then Some(DecimalValue(m)) else None
  }

  /** A signed decimal numeral whose value lies outside the `i32` range does not parse. */
  lemma ParseI32Overflow(s: string)
    requires |s| > 0
    requires if s[0] == '-' then |s| > 1 && AllDigits(s[1..]) && DecimalValue(s[1..]) > I32_MAX + 1
             else AllDigits(s) && DecimalValue(s) > I32_MAX
    ensures ParseI32(s) == None
  {
  }

  /** Printing an `i32` and parsing the text back gives the same number. */
  lemma ParseI32OfIntToString(n: i32)
    ensures ParseI32(IntToString(n)) == Some(n)
  {
    var s := IntToString(n);
    if n < 0 {
      assert s[0] == '-' && s[1..] == NatToString(-(n as int));
    } else {
      assert s == NatToString(n) && IsDigit(s[0]);
    }
  }

  /** Printing a number no larger than `max` and parsing it back as that unsigned type gives the number. */
  lemma ParseUnsignedOfNatToString(n: nat, max: nat)
    requires n <= max
    ensures ParseUnsigned(NatToString(n), max) == Some(n)
  {
    ParseUnsignedDigits(NatToString(n), max);
  }
}

=== FILE: socket.dfy ===
/** The line-oriented connection to the player's remote-control interface.

    The player's side of the conversation is fixed in advance: `input` is everything it will
    send on the connection, in order, and `pos` is how much of it has been read so far. A read
    that wants a delimiter the rest of `input` does not contain stands for the read timing out
    while the player stays silent: it consumes what is left and fails with `Io`. Everything
    the client writes is appended to `sent`, the byte stream the player receives. */
module Socket {
  import opened Errors

  /** The character the player prints when it is ready for the next command. */
  const PROMPT: char := '>'

  /** A character that `trim_output` removes from the front of a reply: the prompt or a space. */
  predicate IsArtifact(c: char) {
    c == PROMPT || c == ' '
  }

  // ---------------------------------------------------------------------------------------
  // trim_output

  /** A reply without the prompt characters and spaces the player puts in front of it. */
  function Trimmed(buf: string): string
    decreases |buf|
  {
    if |buf| > 0 && IsArtifact(buf[0]) then Trimmed(buf[1..]) else buf
  }

  /** Trimming keeps the longest suffix of the buffer that does not start with a prompt
      character or a space; everything before it is such characters. */
  lemma {:induction false} TrimmedSuffix(buf: string)
    ensures |Trimmed(buf)| <= |buf| && Trimmed(buf) == buf[|buf| - |Trimmed(buf)|..]
    ensures forall k :: 0 <= k < |buf| - |Trimmed(buf)| ==> IsArtifact(buf[k])
    ensures Trimmed(buf) == [] || !IsArtifact(Trimmed(buf)[0])
    decreases |buf|
  {
    if |buf| > 0 && IsArtifact(buf[0]) {
      TrimmedSuffix(buf[1..]);
    }
  }

  /** `trim_output`: removes the first character of the buffer while it is the prompt or a
      space. */
  method TrimOutput(buf: string) returns (trimmed: string)
    ensures trimmed == Trimmed(buf)
  {
    trimmed := buf;
    while |trimmed| > 0 && IsArtifact(trimmed[0])
      invariant Trimmed(trimmed) == Trimmed(buf)
      decreases |trimmed|
    {
      trimmed := trimmed[1..];
    }
  }

  /** Prompt characters and spaces in front of a text that does not start with one are exactly
      what trimming removes. */
  lemma {:induction false} TrimmedPrefix(pre: string, rest: string)
    requires forall k :: 0 <= k < |pre| ==> IsArtifact(pre[k])
    requires rest == [] || !IsArtifact(rest[0])
    ensures Trimmed(pre + rest) == rest
    decreases |pre|
  {
    if pre == [] {
      assert pre + rest == rest;
    } else {
      assert (pre + rest)[1..] == pre[1..] + rest;
      TrimmedPrefix(pre[1..], rest);
    }
  }

  /** Trimming twice is trimming once. */
  lemma TrimmedIdempotent(buf: string)
    ensures Trimmed(Trimmed(buf)) == Trimmed(buf)
  {
  }

  /** Only the prompt and the space are removed: a reply starting with anything else, a tab or
      a line break included, is left as it is. */
  lemma TrimmedKeeps(buf: string)
    requires buf == [] || !IsArtifact(buf[0])
    ensures Trimmed(buf) == buf
  {
  }

  /** The reply `> 25\n` to `volume` is read as `25\n`. */
  lemma TrimmedExampleVolume(buf: string)
    requires buf == "> 25\n"
    ensures Trimmed(buf) == "25\n"
  {
    TrimmedPrefix("> ", "25\n");
  }

  /** Several prompts and spaces in a row are all removed. */
  lemma TrimmedExampleRepeated(buf: string)
    requires buf == ">  >25"
    ensures Trimmed(buf) == "25"
  {
    assert buf == ">  >" + "25";
    TrimmedPrefix(">  >", "25");
  }

  // ---------------------------------------------------------------------------------------
  // Reading

  /** A read for `delim` starting at `from` stops at `to`: just past a `delim`, with none
      between `from` and it. */
  ghost predicate EndsAt(s: string, from: nat, to: nat, delim: char) {
    from < to <= |s| && s[to - 1] == delim && delim !in s[from..to - 1]
  }

  /** A read stops at the first delimiter: there is only one place where it can stop. */
  lemma EndsAtUnique(s: string, from: nat, a: nat, b: nat, delim: char)
    requires EndsAt(s, from, a, delim) && EndsAt(s, from, b, delim)
    ensures a == b
  {
    NoDelimBefore(s, from, a, delim);
    NoDelimBefore(s, from, b, delim);
  }

  /** Before the place where a read stops, the text holds no delimiter. */
  lemma NoDelimBefore(s: string, from: nat, to: nat, delim: char)
    requires EndsAt(s, from, to, delim)
    ensures forall k :: from <= k < to - 1 ==> s[k] != delim
  {
    forall k | from <= k < to - 1
      ensures s[k] != delim
    {
      assert s[from..to - 1][k - from] == s[k];
    }
  }

  /** When the rest of `s` holds no `delim`, a read cannot stop. */
  lemma NoEndWithoutDelim(s: string, from: nat, to: nat, delim: char)
    requires from <= |s| && delim !in s[from..]
    ensures !EndsAt(s, from, to, delim)
  {
    if from < to <= |s| {
      assert s[from..][to - 1 - from] == s[to - 1];
    }
  }

  /** The reading and writing halves of the connection to the player (`IoSocket`). */
  class IoSocket {
    /** Everything the player sends on this connection, in order. */
    const input: string
    /** How much of `input` has been read. */
    var pos: nat
    /** Everything written to the player, in order. */
    var sent: string
    /** The trimmed lines `ReadLine` has returned, oldest first. */
    ghost var replies: seq<string>

    ghost predicate Valid()
      reads this
    {
      pos <= |input|
    }

    /** A connection on which the player will send `input`, before anything is read or written. */
    constructor Open(input: string)
      ensures Valid() && this.input == input
      ensures pos == 0 && sent == [] && replies == []
    {
      this.input := input;
      pos := 0;
      sent := [];
      replies := [];
    }

    /** `IoSocket::connect`: opens the connection and reads the player's greeting up to and
        including the first prompt. */
    static method Connect(input: string) returns (r: Result<IoSocket>)
      ensures r.Ok? ==> fresh(r.value) && r.value.Valid() && r.value.input == input
      ensures r.Ok? ==> r.value.sent == [] && r.value.replies == []
      ensures r.Ok? ==> EndsAt(input, 0, r.value.pos, PROMPT)
      ensures r.Err? ==> r.error == Io && PROMPT !in input
    {
      var socket := new IoSocket.Open(input);
      var n, greeting := socket.ReadUntil(PROMPT, []);
      if n.Err? {
        return Err(n.error);
      }
      return Ok(socket);
    }

    /** `BufRead::read_until`: appends to `buf` what the player sends up to and including
        `delim`, and returns how many characters that was. */
    method ReadUntil(delim: char, buf: string) returns (r: Result<nat>, out: string)
      requires Valid()
      modifies this
      ensures Valid() && sent == old(sent) && replies == old(replies)
      ensures r.Ok? ==> EndsAt(input, old(pos), pos, delim) && r.value == pos - old(pos)
      ensures r.Ok? ==> out == buf + input[old(pos)..pos]
      ensures r.Err? ==> r.error == Io && pos == |input| && delim !in input[old(pos)..]
      ensures r.Err? ==> out == buf + input[old(pos)..]
    {
      var i := pos;
      while i < |input| && input[i] != delim
        invariant pos <= i <= |input|
        invariant delim !in input[pos..i]
        decreases |input| - i
      {
        assert input[pos..i + 1] == input[pos..i] + [input[i]];
        i := i + 1;
      }
      if i == |input| {
        r, out := Err(Io), buf + input[pos..];
        pos := |input|;
      } else {
        r, out := Ok(i + 1 - pos), buf + input[pos..i + 1];
        pos := i + 1;
      }
    }

    /** `IoSocket::read_line`: reads one line into `buf` and trims the prompt artifacts off its
        front; the count is that of the characters read, before trimming. */
    method ReadLine(buf: string) returns (r: Result<nat>, out: string)
      requires Valid()
      modifies this
      ensures Valid() && sent == old(sent)
      ensures r.Ok? ==> EndsAt(input, old(pos), pos, '\n') && r.value == pos - old(pos)
      ensures r.Ok? ==> out == Trimmed(buf + input[old(pos)..pos]) && replies == old(replies) + [out]
      ensures r.Err? ==> r.error == Io && pos == |input| && '\n' !in input[old(pos)..]
      ensures r.Err? ==> out == buf + input[old(pos)..] && replies == old(replies)
    {
      var line;
      r, line := ReadUntil('\n', buf);
      if r.Err? {
        out := line;
        return;
      }
      out := TrimOutput(line);
      replies := replies + [out];
    }

    /** `Write::write` followed by `flush`: the text goes to the player. */
    method Write(text: string)
      requires Valid()
      modifies this
      ensures Valid() && sent == old(sent) + text
      ensures pos == old(pos) && replies == old(replies)
    {
      sent := sent + text;
    }
  }
}

=== FILE: text.dfy ===
/** The standard-library text operations the client applies to the player's replies:
    `str::trim`, `str::lines` and `Iterator::filter_map`. */
module Text {
  import opened Errors
  import opened Numbers

  // ---------------------------------------------------------------------------------------
  // str::trim

  /** `str::trim_start`: the text without its leading whitespace. */
  function TrimStart(s: string): string
    decreases |s|
  {
    if |s| > 0 && IsSpace(s[0]) then TrimStart(s[1..]) else s
  }

  /** `str::trim_end`: the text without its trailing whitespace. */
  function TrimEnd(s: string): string
    decreases |s|
  {
    if |s| > 0 && IsSpace(s[|s| - 1]) then TrimEnd(s[..|s| - 1]) else s
  }

  /** `str::trim`: the text without leading and trailing whitespace. */
  function Trim(s: string): string {
    TrimEnd(TrimStart(s))
  }

  /** `TrimStart` removes a run of whitespace from the front and stops at a non-space. */
  lemma {:induction false} TrimStartSuffix(s: string)
    ensures |TrimStart(s)| <= |s| && TrimStart(s) == s[|s| - |TrimStart(s)|..]
    ensures AllSpace(s[..|s| - |TrimStart(s)|])
    ensures TrimStart(s) == [] || !IsSpace(TrimStart(s)[0])
    decreases |s|
  {
    if |s| > 0 && IsSpace(s[0]) {
      TrimStartSuffix(s[1..]);
      var r := TrimStart(s[1..]);
      assert s[..|s| - |r|] == [s[0]] + s[1..][..|s| - 1 - |r|];
    }
  }

  /** `TrimEnd` removes a run of whitespace from the back and stops at a non-space. */
  lemma {:induction false} TrimEndPrefix(s: string)
    ensures |TrimEnd(s)| <= |s| && TrimEnd(s) == s[..|TrimEnd(s)|]
    ensures AllSpace(s[|TrimEnd(s)|..])
    ensures TrimEnd(s) == [] || !IsSpace(TrimEnd(s)[|TrimEnd(s)| - 1])
    decreases |s|
  {
    if |s| > 0 && IsSpace(s[|s| - 1]) {
      TrimEndPrefix(s[..|s| - 1]);
      var r := TrimEnd(s[..|s| - 1]);
      assert s[|r|..] == s[..|s| - 1][|r|..] + [s[|s| - 1]];
    }
  }

  /** The trimmed text is empty exactly when the text is blank, and otherwise starts and ends
      with a non-space. */
  lemma TrimBounds(s: string)
    ensures Trim(s) == [] <==> AllSpace(s)
    ensures Trim(s) == [] || (!IsSpace(Trim(s)[0]) && !IsSpace(Trim(s)[|Trim(s)| - 1]))
  {
    var t := TrimStart(s);
    TrimStartSuffix(s);
    TrimEndPrefix(t);
    assert s == s[..|s| - |t|] + t;
    if Trim(s) == [] {
      assert t == [] + t[0..];
    }
  }

  /** Whitespace, then a text that does not start with whitespace: `TrimStart` keeps exactly the text. */
  lemma {:induction false} TrimStartUnique(pre: string, rest: string)
    requires AllSpace(pre)
    requires rest == [] || !IsSpace(rest[0])
    ensures TrimStart(pre + rest) == rest
    decreases |pre|
  {
    if pre != [] {
      assert (pre + rest)[1..] == pre[1..] + rest;
      TrimStartUnique(pre[1..], rest);
    } else {
      assert pre + rest == rest;
    }
  }

  /** A text that does not end with whitespace, then whitespace: `TrimEnd` keeps exactly the text. */
  lemma {:induction false} TrimEndUnique(rest: string, post: string)
    requires AllSpace(post)
    requires rest == [] || !IsSpace(rest[|rest| - 1])
    ensures TrimEnd(rest + post) == rest
    decreases |post|
  {
    if post != [] {
      assert (rest + post)[..|rest + post| - 1] == rest + post[..|post| - 1];
      TrimEndUnique(rest, post[..|post| - 1]);
    } else {
      assert rest + post == rest;
    }
  }

  /** `Trim` recovers the text between any leading and trailing whitespace. */
  lemma TrimUnique(pre: string, core: string, post: string)
    requires AllSpace(pre) && AllSpace(post)
    requires core == [] || (!IsSpace(core[0]) && !IsSpace(core[|core| - 1]))
    ensures Trim(pre + core + post) == core
  {
    if core == [] {
      assert AllSpace(pre + core + post) by {
        assert pre + core + post == pre + post;
      }
      TrimBounds(pre + core + post);
    } else {
      assert pre + core + post == pre + (core + post);
      TrimStartUnique(pre, core + post);
      TrimEndUnique(core, post);
    }
  }

  // ---------------------------------------------------------------------------------------
  // str::lines

  /** The length of the first line of `s`: the position of its first `\n`, or `|s|`. */
  function LineLength(s: string): (n: nat)
    ensures n <= |s| && (n < |s| ==> s[n] == '\n')
    ensures forall k :: 0 <= k < n ==> s[k] != '\n'
    decreases |s|
  {
    if s == [] || s[0] == '\n' then 0 else 1 + LineLength(s[1..])
  }

  /** A line as `lines` yields it: one `\r` before the removed `\n` goes as well. */
  function StripCr(line: string): string {
    if |line| > 0 && line[|line| - 1] == '\r' then line[..|line| - 1] else line
  }

  /** `str::lines`: the text cut at every `\n`, with the `\n` (and a `\r` just before it)
      removed, and no empty line after a final `\n`. */
  function Lines(s: string): seq<string>
    decreases |s|
  {
    if s == [] then []
    else
      var n := LineLength(s);
      if n == |s| then [s] else [StripCr(s[..n])] + Lines(s[n + 1..])
  }

  /** The text has lines exactly when it is not empty, and none of them holds a `\n`. */
  lemma {:induction false} LinesNoNewline(s: string)
    ensures s == [] <==> Lines(s) == []
    ensures forall i :: 0 <= i < |Lines(s)| ==> '\n' !in Lines(s)[i]
    decreases |s|
  {
    if s != [] {
      var n := LineLength(s);
      if n == |s| {
        assert forall k :: 0 <= k < |s| ==> s[k] != '\n';
      } else {
        LinesNoNewline(s[n + 1..]);
        assert forall k :: 0 <= k < |StripCr(s[..n])| ==> StripCr(s[..n])[k] == s[k];
      }
    }
  }

  /** Lines written one after another, each followed by `\n`. */
  function JoinLines(ls: seq<string>): string
    decreases |ls|
  {
    if ls == [] then [] else ls[0] + "\n" + JoinLines(ls[1..])
  }

  /** A line that `lines` gives back unchanged: it has no `\n` and does not end in `\r`. */
  predicate IsPlainLine(l: string) {
    '\n' !in l && (l == [] || l[|l| - 1] != '\r')
  }

  /** A plain line followed by `\n` is the first line `lines` yields; the rest follow it. */
  lemma LinesOfLine(l: string, rest: string)
    requires IsPlainLine(l)
    ensures Lines(l + "\n" + rest) == [l] + Lines(rest)
  {
    var s := l + "\n" + rest;
    assert s[..|l|] == l && s[|l| + 1..] == rest;
    assert forall k :: 0 <= k < |l| ==> s[k] != '\n' by {
      assert forall k :: 0 <= k < |l| ==> s[k] == l[k];
    }
    LineLengthAt(s, |l|);
  }

  /** A `\n` at `n` with none before it is where the first line ends. */
  lemma LineLengthAt(s: string, n: nat)
    requires n < |s| && s[n] == '\n'
    requires forall k :: 0 <= k < n ==> s[k] != '\n'
    ensures LineLength(s) == n
  {
  }

  /** Cutting lines written one after another gives back those lines, then the lines of
      whatever follows them. */
  lemma {:induction false} LinesOfJoin(ls: seq<string>, tail: string)
    requires forall i :: 0 <= i < |ls| ==> IsPlainLine(ls[i])
    ensures Lines(JoinLines(ls) + tail) == ls + Lines(tail)
    decreases |ls|
  {
    if ls == [] {
      assert JoinLines(ls) + tail == tail;
    } else {
      LinesOfJoin(ls[1..], tail);
      LinesOfJoinStep(ls, tail);
    }
  }

  /** The inductive step of `LinesOfJoin`: one more plain line in front. */
  lemma LinesOfJoinStep(ls: seq<string>, tail: string)
    requires ls != [] && IsPlainLine(ls[0])
    requires Lines(JoinLines(ls[1..]) + tail) == ls[1..] + Lines(tail)
    ensures Lines(JoinLines(ls) + tail) == ls + Lines(tail)
  {
    var rest := JoinLines(ls[1..]) + tail;
    JoinLinesCons(ls, tail);
    LinesOfLine(ls[0], rest);
    ConsAppend(ls, Lines(tail));
  }

  /** A non-empty sequence followed by another is its head, then its tail followed by the other. */
  lemma ConsAppend<T>(xs: seq<T>, ys: seq<T>)
    requires xs != []
    ensures xs + ys == [xs[0]] + (xs[1..] + ys)
  {
    assert xs == [xs[0]] + xs[1..];
  }

  /** The text of lines written one after another starts with the first line and its `\n`. */
  lemma JoinLinesCons(ls: seq<string>, tail: string)
    requires ls != []
    ensures JoinLines(ls) + tail == ls[0] + "\n" + (JoinLines(ls[1..]) + tail)
  {
  }

  // ---------------------------------------------------------------------------------------
  // Iterator::filter_map

  /** `xs.iter().filter_map(f).collect()`: the present results of `f`, in the order of `xs`. */
  function FilterMap<A, B>(xs: seq<A>, f: A -> Option<B>): (r: seq<B>)
    ensures |r| <= |xs|
    decreases |xs|
  {
    if xs == [] then []
    else
      var head := match f(xs[0]) case Some(y) => [y] case None => [];
      head + FilterMap(xs[1..], f)
  }

  /** Filtering a concatenation filters each part. */
  lemma {:induction false} FilterMapAppend<A, B>(xs: seq<A>, ys: seq<A>, f: A -> Option<B>)
    ensures FilterMap(xs + ys, f) == FilterMap(xs, f) + FilterMap(ys, f)
    decreases |xs|
  {
    if xs == [] {
      assert xs + ys == ys;
    } else {
      assert (xs + ys)[1..] == xs[1..] + ys;
      FilterMapAppend(xs[1..], ys, f);
    }
  }

  /** When `f` turns each element into the matching element of `ys`, the result is `ys`. */
  lemma {:induction false} FilterMapExact<A, B>(xs: seq<A>, f: A -> Option<B>, ys: seq<B>)
    requires |xs| == |ys|
    requires forall i :: 0 <= i < |xs| ==> f(xs[i]) == Some(ys[i])
    ensures FilterMap(xs, f) == ys
    decreases |xs|
  {
    if xs != [] {
      FilterMapExact(xs[1..], f, ys[1..]);
      assert ys == [ys[0]] + ys[1..];
    }
  }

  /** When `f` fails on every element, the result is empty. */
  lemma {:induction false} FilterMapAllAbsent<A, B>(xs: seq<A>, f: A -> Option<B>)
    requires forall i :: 0 <= i < |xs| ==> f(xs[i]).None?
    ensures FilterMap(xs, f) == []
    decreases |xs|
  {
    if xs != [] {
      FilterMapAllAbsent(xs[1..], f);
    }
  }
}
